=== FILE: README.md ===
# Remote command dispatch, support-bundle assembly and image references

A Dafny model of three parts of an EKS Anywhere code base, with proofs of
their properties:

- **`internal/pkg/ssm/command.go`** (modules `SsmCommand`, `Retrier`, `Text`).
  `Run` sends one shell command to one managed instance through the remote
  command service, in these steps:
  - build the `SendCommandInput`: the `AWS-RunShellScript` document, a
    working-directory preamble ahead of the command, and a three-hour
    execution timeout;
  - apply the caller's options in order;
  - submit under a throttle-aware retry policy;
  - wait up to ten queries for the invocation to be registered;
  - poll up to 2160 times until the status is final;
  - print the captured stdout and stderr, each piece tagged with the
    instance id;
  - return nil only when the final status is `Success`.

  `WaitForSSMReady` runs `ls` through `Run` up to ten times, 20 s apart,
  until one run returns nil.
- **`pkg/support/runsupportbundle.go`** (module `SupportBundle`). This part:
  - picks a custom or a generated diagnostic bundle;
  - builds the generated troubleshoot `SupportBundle` with a chain of
    `With*` steps, which append factory-made analyzers and collectors;
  - parses the `--since` / `--since-time` options.
- **`Image` of the release manifest** (module `ReleaseImage`). A URI is split
  into repository and tag, as its tests in
  `release/api/v1alpha1/artifact_types_test.go` fix it.

`Wrappers` holds `Option` and `Result`.

How the model stands in for the outside world:

- **The remote service** is a script of replies, one sequence per stage:
  send, registration query and status query.
- **Retry loops** run over a finite sequence of outcomes. The end of that
  sequence stands for the loop's wall-clock ceiling. A policy is consulted
  with the number of attempts made so far and the last error.
- **The SDK's throttle test** is the `throttled` flag of a `ServiceError`.
- **`time.Parse`, `time.ParseDuration` and `time.Now`** are parameters of
  `ParseTimeOptions`.
- **An instant** is a count of nanoseconds since Go's zero time.
- **A `time.Duration`** is a 64-bit integer. The `0 - duration` in
  `ParseTimeOptions` wraps as Go's arithmetic does.

Two behaviours of the code worth knowing:

- **Printed output is not line-terminated.** The comment at
  `internal/pkg/ssm/command.go:117-118` speaks of appending the instance id
  to the start of each line. The code prints each piece with
  `Printf("%s: %s")` and adds no newline, so consecutive pieces share one
  line of standard output. `Attribute` and `Transcript` model the pieces.
  `PrintedText` models the text that results, and `PrintedPiecesShareALine`
  shows the effect.
- **Unknown statuses are final.** `isFinalStatus` calls every status outside
  `InProgress`, `Delayed` and `Pending` final, unknown ones included. An
  unknown status ends the polling and then fails the run.

## Model

| member | source | states |
|---|---|---|
| Text.Split | internal/pkg/ssm/command.go:120 | the pieces number one more than the separators, none contains a separator, and joining them with the separator gives back the input |
| Text.SplitWithoutSeparator | internal/pkg/ssm/command.go:120 | a newline-free output is a single piece |
| Text.SplitPeelsFirstPiece | internal/pkg/ssm/command.go:120 | splitting `p + sep + rest` yields `p` followed by the pieces of `rest` |
| Text.SplitOfJoin | internal/pkg/ssm/command.go:120 | splitting a join of separator-free pieces gives the pieces back (the other round trip) |
| Retrier.RetryFrom | internal/pkg/ssm/command.go:57-71 | the loop makes at least one attempt and returns the last attempt's outcome; every earlier attempt failed and the policy asked for a retry; it stops early only when the policy refuses; each wait is the policy's wait for that failure |
| Retrier.RetriedFailuresThenSuccess | internal/pkg/ssm/command.go:57-71 | failures the policy lets through, then a success: the loop succeeds on attempt k+1 after exactly k waits |
| Retrier.FixedAttemptsWithinBudget | internal/pkg/ssm/command.go:105 | a fixed-attempts policy never lets the loop make more than its maximum number of attempts |
| Retrier.FixedAttemptsSucceedIff | internal/pkg/ssm/command.go:91-98 | under a fixed-attempts policy the loop succeeds exactly when one of the first max attempts (that the ceiling allows) succeeds |
| Retrier.FixedAttemptsFailureUsesBudget | internal/pkg/ssm/command.go:21-23 | a failing fixed-attempts loop has made max attempts, or as many as the ceiling allowed if fewer; every wait is the fixed one, one after each failed attempt but the budget's last |
| Retrier.RetryFixed | internal/pkg/ssm/command.go:105-106 | the fixed-attempts loop: between 1 and max attempts, every attempt before the last failed, the last outcome returned, success iff some allowed attempt succeeds; a failure comes from the last attempt the budget and the ceiling allow; one fixed wait after each failed attempt but the budget's last |
| Retrier.AlwaysFailingUsesEveryAttempt | internal/pkg/ssm/command.go:21-23 | an operation that always fails is tried exactly max times with the fixed wait between attempts, and the last error is returned |
| Retrier.FailuresThenSuccess | internal/pkg/ssm/command.go:105-134 | k failures below the budget, then a success: k+1 attempts, the success returned, exactly k fixed waits and none after the success |
| SsmCommand.BuildRequest | internal/pkg/ssm/command.go:45-51 | the request names the shell-script document and the one instance; it carries exactly the commands (preamble, then the command) and the executionTimeout ("10800", three hours in seconds) parameters; it has no S3 output |
| SsmCommand.ApplyOpts | internal/pkg/ssm/command.go:53-55 | no options leave the request as built; otherwise the last option is applied to what the earlier ones made |
| SsmCommand.ApplyOptsInOrder | internal/pkg/ssm/command.go:53-55 | applying a + b is applying a and then b to the result |
| SsmCommand.LastOptionWins | internal/pkg/ssm/command.go:53-55 | the last option is applied to what all the earlier options produced |
| SsmCommand.WithOutputToS3 | internal/pkg/ssm/command.go:33-38 | the option sets the bucket and the key prefix and leaves the document, the instances and the parameters as they were |
| SsmCommand.WithOutputToS3Idempotent | internal/pkg/ssm/command.go:33-38 | applying the S3 option twice equals applying it once |
| SsmCommand.LaterS3OptionOverrides | internal/pkg/ssm/command.go:53-55 | a later S3 option decides the output location whatever earlier options set, and keeps the rest of what they built |
| SsmCommand.IsFinalStatus | internal/pkg/ssm/command.go:146-149 | a status is final iff it is none of InProgress, Delayed and Pending, so an unknown status or "" is final |
| SsmCommand.FinalStatuses | internal/pkg/ssm/command.go:146-149 | InProgress, Delayed and Pending are not final; Success, Cancelled, TimedOut, Failed, Cancelling, a made-up status and "" are |
| SsmCommand.RunErrorMessage | internal/pkg/ssm/command.go:73-140 | each error text is its stage's fixed text followed by the text of the error that stage gave up on; an execution failure's text is the fixed text alone |
| SsmCommand.ReadinessErrorMessage | internal/pkg/ssm/command.go:25 | the readiness error text is its fixed text followed by the text of the last run's error |
| SsmCommand.RunErrorMessagesIdentifyStage | internal/pkg/ssm/command.go:72-141 | errors from different stages of Run never have the same text |
| SsmCommand.ReadinessMessageDistinct | internal/pkg/ssm/command.go:24-26 | the readiness failure's text differs from every error text Run returns |
| SsmCommand.ThrottlePolicy | internal/pkg/ssm/command.go:57-62 | retry iff the error is throttling and fewer than 60 retries have happened; the wait is 60 s on retry and 0 otherwise |
| SsmCommand.Submit | internal/pkg/ssm/command.go:63-74 | 1 to 60 send attempts; the last reply is returned; every earlier reply was a throttling error; one 60 s wait after each retried send, and after a last throttled send that the replies cut short before the 60th; it gives up only on an error that is not throttling, after the 60th attempt, or when the replies run out |
| SsmCommand.ThrottleBudget | internal/pkg/ssm/command.go:57-62 | the submission never makes more than 60 attempts, however long throttling lasts |
| SsmCommand.NonThrottleErrorNotRetried | internal/pkg/ssm/command.go:58-61 | an error that is not throttling ends the submission at once, with no wait |
| SsmCommand.ThrottledThenAccepted | internal/pkg/ssm/command.go:57-71 | k throttled sends (k < 60) and then an accepted one: k+1 attempts and k one-minute waits |
| SsmCommand.RegistrationStep | internal/pkg/ssm/command.go:92-95 | a query counts as registered iff it succeeded; a failure wraps the service error |
| SsmCommand.PollStep | internal/pkg/ssm/command.go:108-133 | a query ends the poll iff it succeeded with a final status; a query error comes back unchanged; a non-final status becomes a "still running" error |
| SsmCommand.WaitForRegistration | internal/pkg/ssm/command.go:89-101 | 1 to 10 queries, every one before the last failed, with a 5 s wait after each failed query but the tenth; success iff one of the first ten replies is a success; the outcome is that of the last query, and a failure comes after the tenth query or the last the ceiling allows |
| SsmCommand.PollUntilFinal | internal/pkg/ssm/command.go:103-137 | 1 to 2160 queries, none before the last reporting a final status, with a 60 s wait after each but the 2160th; success iff some allowed reply carries a final status; the outcome is that of the last query, and on success the last reply is that invocation, so polling stops at the first final status; a failure comes after the 2160th query or the last the ceiling allows |
| SsmCommand.RunningThenFinal | internal/pkg/ssm/command.go:105-134 | k non-final statuses and then a final one: k+1 queries a minute apart, and the final reply is returned |
| SsmCommand.Attribute | internal/pkg/ssm/command.go:120-122 | one piece per newline-separated segment of the output, each beginning with the instance id and ": " |
| SsmCommand.AttributionRoundTrip | internal/pkg/ssm/command.go:118-122 | stripping the instance-id prefixes and joining with newlines gives back the captured output |
| SsmCommand.Transcript | internal/pkg/ssm/command.go:119-128 | the final-status branch makes one print call per stdout piece and per stderr piece (one more than the newlines in each), plus two headers and two dividers |
| SsmCommand.FramedSections | internal/pkg/ssm/command.go:119-128 | in `[h1] + a + [d, h2] + b + [d]`, each header, section and divider sits at its expected index |
| SsmCommand.TranscriptLayout | internal/pkg/ssm/command.go:119-128 | the print calls are: the stdout header, the stdout pieces, a divider, the stderr header, the stderr pieces, a divider |
| SsmCommand.TranscriptReadBack | internal/pkg/ssm/command.go:119-128 | the captured stdout and stderr can both be recovered from what was printed |
| SsmCommand.PrintedPiecesShareALine | internal/pkg/ssm/command.go:120-122 | with no newline after each piece, stdout "a\nb" prints as "i-1: ai-1: b" |
| SsmCommand.Observe | internal/pkg/ssm/command.go:84-143 | after an accepted submission: 1 to 10 registration queries, every one before the last failed; status queries happen iff registration succeeded, and otherwise the run fails with the error of the tenth registration query or the last the ceiling allows; once status queries happen, a final status is seen iff one of the first 2160 poll replies the ceiling allows carries one, and it is the first such reply's; nil iff the final status is Success; an exhausted poll fails with the error of the 2160th poll query or the last the ceiling allows; what is printed is the transcript of the final reply, and nothing without one |
| SsmCommand.Complete | internal/pkg/ssm/command.go:103-143 | 1 to 2160 status queries, none before the last reporting a final status; a final status is reached iff one of the first 2160 replies the ceiling allows carries one, and it is the last reply's; otherwise the stage gives up with the error of the 2160th query or the last the ceiling allows; a final status other than Success is an execution failure; what is printed is the final reply's transcript; the earlier stages' fields are kept |
| SsmCommand.Run | internal/pkg/ssm/command.go:45-144 | the request is the built request with the options applied in order; 1 to 60 sends, every one before the last throttled and followed by a 60 s wait, and a 60 s wait after a last throttled send the replies cut short before the 60th; a failed send ends the run with the last send error, which is not throttling unless the 60th send or the last the ceiling allows was reached; status queries happen iff a command id was obtained and registration succeeded, and every registration query before the last failed; otherwise the run fails with the error of the tenth registration query or the last the ceiling allows; once status queries happen, a final status is seen iff one of the first 2160 poll replies the ceiling allows carries one, and it is the first such reply's; an exhausted poll fails with the error of the 2160th poll query or the last the ceiling allows; nil iff the final status seen is Success; "failed to execute" iff the final status is something else; output is printed iff a final status was seen |
| SsmCommand.RunPrintsFinalTranscript | internal/pkg/ssm/command.go:114-128 | what a run prints on a final status is the transcript (headers, attributed pieces, dividers) of the status reply that reported it |
| SsmCommand.RunSubmitsOnce | internal/pkg/ssm/command.go:63-76 | one command per run: every send before the last was throttled, and the command id is the last reply's |
| SsmCommand.RunStagesInOrder | internal/pkg/ssm/command.go:72-137 | no registration query without a command id; a command id means at least one registration query; no status query unless registration succeeded; no final status without a status query |
| SsmCommand.RunSubmitsPreambleThenCommand | internal/pkg/ssm/command.go:45-55 | with the S3 option, the submitted request carries the preamble, then the command, the 10800 s timeout and the caller's bucket and prefix |
| SsmCommand.ThrottledThenCompleted | internal/pkg/ssm/command.go:45-144 | end to end: k throttles, immediate registration, m running polls and then Success give k+1 sends, m+1 polls, nil, and the transcript of the final reply |
| SsmCommand.AttributeOfThreeLines | internal/pkg/ssm/command.go:120-122 | output of three newline-free lines gives exactly three pieces, one per line, in order |
| SsmCommand.AttributeThreeLines | internal/pkg/ssm/command.go:120-122 | stdout "a\nb\nc" on instance "i-1" gives the pieces "i-1: a", "i-1: b", "i-1: c" |
| SsmCommand.Probe | internal/pkg/ssm/command.go:21-23 | a readiness attempt succeeds iff a Run of "ls" returns nil, and otherwise fails with Run's error |
| SsmCommand.ReadinessLoop | internal/pkg/ssm/command.go:21-23 | 1 to 10 `ls` runs, every one before the last failed, with a 20 s wait after each failed run but the tenth; the outcome is that of the last run; success iff one of the first ten runs succeeds; a failure comes after the tenth run or the last the ceiling allows |
| SsmCommand.ReadinessSucceedsIff | internal/pkg/ssm/command.go:21-23 | the readiness loop succeeds iff a `Run` of `ls` returns nil against one of the first ten service states |
| SsmCommand.ReadinessFailsWithLastProbe | internal/pkg/ssm/command.go:21-26 | a failing readiness loop returns the error of the last `ls` run, the tenth or the last the ceiling allows |
| SsmCommand.WaitForSSMReady | internal/pkg/ssm/command.go:20-29 | nil iff one of the first ten `ls` runs succeeds; otherwise the error wraps the error of the last run, the tenth or the last the ceiling allows |
| SupportBundle.WithDefaultCollectors | pkg/support/runsupportbundle.go:173-176 | appends the factory's default collectors; the analyzers and every other field are unchanged |
| SupportBundle.WithDefaultAnalyzers | pkg/support/runsupportbundle.go:178-181 | appends the factory's default analyzers; the collectors and every other field are unchanged |
| SupportBundle.WithDatacenterConfig | pkg/support/runsupportbundle.go:183-186 | appends the factory's analyzers for the given datacenter reference |
| SupportBundle.WithOidcConfig | pkg/support/runsupportbundle.go:188-193 | no change without an OIDC config; otherwise the OIDC analyzers are appended |
| SupportBundle.WithExternalEtcd | pkg/support/runsupportbundle.go:195-200 | no change without an external-etcd config; otherwise the etcd analyzers are appended |
| SupportBundle.WithGitOpsConfig | pkg/support/runsupportbundle.go:202-207 | no change without a GitOps config; otherwise the GitOps analyzers are appended |
| SupportBundle.NewCustomBundleConfig | pkg/support/runsupportbundle.go:50-58 | no generated bundle; the path, the factories, the client and the kubeconfig come from the options |
| SupportBundle.NewDefaultBundleConfig | pkg/support/runsupportbundle.go:60-76 | a SupportBundle of kind and API version troubleshoot.sh/v1beta2 named "defaultBundle", holding exactly the default analyzers and collectors |
| SupportBundle.NewBundleFromSpec | pkg/support/runsupportbundle.go:78-94 | a generated SupportBundle named after the cluster with "Bundle" appended; the factories, client and kubeconfig come from the options |
| SupportBundle.BundleFromSpecContents | pkg/support/runsupportbundle.go:95-101 | the analyzers are, in order: GitOps, OIDC and external etcd (each only if configured), the datacenter's, then the defaults; the collectors are the defaults |
| SupportBundle.NewDiagnosticBundle | pkg/support/runsupportbundle.go:42-102 | a bundle is generated iff no bundle path is given; the path, client and kubeconfig are kept; a generated bundle is named after the cluster and holds the spec's feature analyzers, the datacenter's and the defaults, in that order, and the default collectors; with a path it is the custom configuration; construction never fails |
| SupportBundle.NegateDuration | pkg/support/runsupportbundle.go:227 | `0 - duration` in 64-bit arithmetic: the negation, except that the most negative duration stays itself; the sum with the input is 0 modulo 2^64 |
| SupportBundle.ParseTimeOptions | pkg/support/runsupportbundle.go:209-230 | the zero time when neither option is set; an error when both are; the parsed timestamp or its parse error; now minus the parsed duration or its parse error |
| SupportBundle.TimeOptionErrorMessage | pkg/support/runsupportbundle.go:214-225 | each error text is the fixed text of its case, followed for a parse failure by the parser's error text |
| SupportBundle.TimeOptionMessageDeterminesError | pkg/support/runsupportbundle.go:214-225 | two time-option errors with the same text are the same error: the text tells which option failed and with which parser error |
| SupportBundle.AtMostOneTimeOption | pkg/support/runsupportbundle.go:212-215 | a successful parse implies at most one option was set; with only --since-time the result does not depend on the clock |
| SupportBundle.SinceLooksBack | pkg/support/runsupportbundle.go:221-228 | a non-negative --since gives a start no later than now, exactly that duration back |
| ReleaseImage.TagColonIn | release/api/v1alpha1/artifact_types_test.go:44-58 | the backward scan finds the last ':' that no ':' or '/' follows, and reports none exactly when there is no such ':' |
| ReleaseImage.VersionedImage | release/api/v1alpha1/artifact_types_test.go:15-24 | the versioned image is the image, then ':' and the tag when the URI has a tag separator, and the image alone otherwise |
| ReleaseImage.Image | release/api/v1alpha1/artifact_types_test.go:44-57 | the image is a prefix of the URI, and equals it iff the URI has no tag separator |
| ReleaseImage.Tag | release/api/v1alpha1/artifact_types_test.go:78-97 | the tag is a suffix of the URI that contains no ':' or '/', and is "" when there is no tag separator |
| ReleaseImage.ImageColonTagIsUri | release/api/v1alpha1/artifact_types_test.go:15-24 | a tagged URI (its versioned image) is its image, then ':', then its tag |
| ReleaseImage.SplitOfJoinedImage | release/api/v1alpha1/artifact_types_test.go:49-53 | joining a repository and a tag free of ':' and '/' with ':' and splitting again gives both back, whatever colons the repository holds |
| ReleaseImage.UntaggedWhenNoColonAfterSlash | release/api/v1alpha1/artifact_types_test.go:54-58 | a URI with no ':' after its last '/' has no tag: the image is the whole URI and the tag is "" |
| ReleaseImage.FullUriVector | release/api/v1alpha1/artifact_types_test.go:44-48 | "full uri": the versioned image is the URI, the image is the repository, the tag is the build tag |
| ReleaseImage.FullUriWithPortVector | release/api/v1alpha1/artifact_types_test.go:49-53 | "full uri with port": the port's ':' stays in the image and the tag is the build tag |
| ReleaseImage.NoTagVector | release/api/v1alpha1/artifact_types_test.go:89-92 | "no tag": the image is the whole URI and the tag is "" |
| ReleaseImage.EmptyTagVector | release/api/v1alpha1/artifact_types_test.go:93-97 | "empty tag": a URI ending in ':' has the tag "" and the repository as image |

## Left out

- Calls to the remote command service, the session and the SDK types are left out. The service is the reply script `Service`.
- The SDK's `request.IsErrorThrottle` is left out. Each `ServiceError` carries its result as the `throttled` flag.
- `pkg/retrier` is not part of this model. The loop's behaviour is inferred from how `command.go` uses it:
  - at least one attempt;
  - the policy is given the number of attempts made so far;
  - `WithMaxRetries(n, d)` and `Retry(n, d, fn)` retry while fewer than `n` attempts have been made, waiting `d`;
  - the last error is returned.
- Sleeping, the 180-minute ceilings and `time.Duration` waits are left out. Waits are recorded as whole seconds. A ceiling is the end of a stage's reply sequence.
- The logger calls are left out, including the S3 output-URL message. It dereferences the key prefix whenever a bucket is set; no option in the code sets one without the other.
- `fmt.Println` and `fmt.Printf` are left out. What is printed is the `printed` list of a `RunTrace`. Concurrent runs sharing standard output are not modelled.
- `Run` reads `result.Command.CommandId` and `commandOut.Status` without nil checks. Those nil-pointer panics are not modelled: an accepted send always carries a command id, and an invocation always carries a status.
- The `With*` steps of `SupportBundle` require a generated bundle. In Go they dereference `e.bundle`, which is nil for a `NewCustomBundleConfig` result, and would panic there. That nil-pointer panic is not modelled: the constructors only chain the steps onto a bundle they have just created.
- The 8000-character truncation of captured output happens in the service and is not modelled.
- `CollectAndAnalyze`, `CollectBundleFromSpec` and `PrintBundleConfig` are left out. They only hand the bundle to the troubleshoot client, the Kubernetes REST configuration and YAML marshalling, none of which this model contains.
- The analyzer factory, collector factory and troubleshoot specs are opaque values. Only their order and their presence are tracked.
- `time.Parse` (RFC 3339), `time.ParseDuration` and `time.Now` are parameters of `ParseTimeOptions`. Their bodies are not modelled.
- SupportBundle.ParseTimeOptions: `Time.Add` is unbounded addition on nanoseconds. Go saturates it at the ends of its time range, and that saturation is not modelled.
- `release/api/v1alpha1/artifact_types.go` is not part of this model. `Image` and `Tag` split at the last ':' that no '/' follows. The repository's test vectors agree with this rule, but they also agree with splitting at the last ':'. The two rules differ only on an untagged URI whose registry has a port, such as `host:8484/repo`. The vectors have no such case, so what the code does there is unconfirmed.
- The other source files are not modelled: the image import command, the git factory, the test framework, the diagnostics types and the troubleshoot executable. They only call into, or are called by, the modelled code.

=== FILE: release_image.dfy ===
/** Splitting a container image URI into repository and tag, as the release
    manifest's `Image.VersionedImage`, `Image.Image` and `Image.Tag` do.

    The tag separator is the last ':' that no '/' follows. A ':' earlier in
    the URI, such as the one before a registry port, belongs to the
    repository part. */
module ReleaseImage {
  import opened Wrappers

  /** `i` is the tag separator of `uri[..k]`: a ':' followed, up to `k`, by
      neither ':' nor '/'. */
  ghost predicate TagColonBefore(uri: string, k: nat, i: nat)
    requires k <= |uri|
  {
    i < k && uri[i] == ':' && forall j :: i < j < k ==> uri[j] != ':' && uri[j] != '/'
  }

  ghost predicate IsTagColon(uri: string, i: nat)
  {
    TagColonBefore(uri, |uri|, i)
  }

  /** Scans `uri[..k]` backwards for the tag separator, stopping at a '/'. */
  function TagColonIn(uri: string, k: nat): (r: Option<nat>)
    requires k <= |uri|
    ensures r.Some? ==> TagColonBefore(uri, k, r.value)
    ensures r.None? ==> forall i: nat :: !TagColonBefore(uri, k, i)
  {
    if k == 0 then None
    else if uri[k - 1] == '/' then None
    else if uri[k - 1] == ':' then Some(k - 1)
    else
      var r := TagColonIn(uri, k - 1);
      assert forall i: nat :: TagColonBefore(uri, k, i) ==> TagColonBefore(uri, k - 1, i);
      r
  }

  /** Position of the tag separator of `uri`, if it has one. */
  function TagColon(uri: string): (r: Option<nat>)
    ensures r.Some? ==> IsTagColon(uri, r.value)
    ensures r.None? ==> forall i: nat :: !IsTagColon(uri, i)
  {
    TagColonIn(uri, |uri|)
  }

  /** The full reference, tag included: the repository part followed, when
      there is a tag, by the separator and the tag. */
  function VersionedImage(uri: string): (r: string)
    ensures TagColon(uri).Some? ==> r == Image(uri) + ":" + Tag(uri)
    ensures TagColon(uri).None? ==> r == Image(uri) && Tag(uri) == ""
  {
    match TagColon(uri)
    case Some(i) =>
      assert uri == uri[..i] + [uri[i]] + uri[i + 1..];
      uri
    case None => uri
  }

  /** The repository part: everything before the tag separator. */
  function Image(uri: string): (r: string)
    ensures r <= uri
    ensures r == uri <==> TagColon(uri).None?
  {
    match TagColon(uri)
    case Some(i) => uri[..i]
    case None => uri
  }

  /** The tag: everything after the tag separator, "" when there is none. */
  function Tag(uri: string): (r: string)
    ensures ':' !in r && '/' !in r
    ensures |r| <= |uri| && r == uri[|uri| - |r|..]
    ensures TagColon(uri).None? ==> r == ""
  {
    match TagColon(uri)
    case Some(i) => uri[i + 1..]
    case None => ""
  }

  /** A tagged URI is its repository, a ':', and its tag. */
  lemma ImageColonTagIsUri(uri: string)
    requires TagColon(uri).Some?
    ensures Image(uri) + ":" + Tag(uri) == uri
    ensures VersionedImage(uri) == Image(uri) + ":" + Tag(uri)
  {
    var i := TagColon(uri).value;
    assert uri == uri[..i] + [uri[i]] + uri[i + 1..];
  }

  /** The other direction: joining a repository and a tag free of ':' and '/'
      with ':' and splitting again gives both back, whatever colons the
      repository holds. */
  lemma SplitOfJoinedImage(image: string, tag: string)
    requires ':' !in tag && '/' !in tag
    ensures TagColon(image + ":" + tag) == Some(|image|)
    ensures Image(image + ":" + tag) == image && Tag(image + ":" + tag) == tag
  {
    var uri := image + ":" + tag;
    assert IsTagColon(uri, |image|) by {
      forall j | |image| < j < |uri| ensures uri[j] != ':' && uri[j] != '/' {
        assert uri[j] == tag[j - |image| - 1];
      }
    }
    assert uri[..|image|] == image;
    assert uri[|image| + 1..] == tag;
  }

  /** A URI with no ':' after its last '/' has no tag. */
  lemma UntaggedWhenNoColonAfterSlash(head: string, rest: string)
    requires ':' !in rest
    ensures TagColon(head + "/" + rest).None?
    ensures Image(head + "/" + rest) == head + "/" + rest && Tag(head + "/" + rest) == ""
  {
    var uri := head + "/" + rest;
    forall i: nat ensures !IsTagColon(uri, i) {
      if i < |uri| && uri[i] == ':' {
        assert i < |head|;
        assert uri[|head|] == '/';
      }
    }
  }

  // ---------------------------------------------------------------------
  // The test vectors

  const Repository: string := "public.ecr.aws/l0g8r8j6/kubernetes-sigs/kind/node"
  const RepositoryWithPort: string := "public.ecr.aws:8484/l0g8r8j6/kubernetes-sigs/kind/node"
  const BuildTag: string := "v1.20.4-eks-d-1-20-1-eks-a-0.0.1.build.38"

  lemma BuildTagHasNoSeparator()
    ensures ':' !in BuildTag && '/' !in BuildTag
  {
  }

  /** "full uri": the versioned image is the URI, the image drops ":tag", the
      tag is what follows the ':'. */
  lemma FullUriVector()
    ensures VersionedImage(Repository + ":" + BuildTag) == Repository + ":" + BuildTag
    ensures Image(Repository + ":" + BuildTag) == Repository
    ensures Tag(Repository + ":" + BuildTag) == BuildTag
  {
    BuildTagHasNoSeparator();
    SplitOfJoinedImage(Repository, BuildTag);
  }

  /** "full uri with port": the port's ':' stays in the image. */
  lemma FullUriWithPortVector()
    ensures VersionedImage(RepositoryWithPort + ":" + BuildTag) == RepositoryWithPort + ":" + BuildTag
    ensures Image(RepositoryWithPort + ":" + BuildTag) == RepositoryWithPort
    ensures Tag(RepositoryWithPort + ":" + BuildTag) == BuildTag
  {
    BuildTagHasNoSeparator();
    SplitOfJoinedImage(RepositoryWithPort, BuildTag);
  }

  /** "no tag": the image is the whole URI and the tag is empty. */
  lemma NoTagVector()
    ensures Image(Repository) == Repository && Tag(Repository) == ""
  {
    var head := "public.ecr.aws/l0g8r8j6/kubernetes-sigs/kind";
    assert Repository == head + "/" + "node";
    UntaggedWhenNoColonAfterSlash(head, "node");
  }

  /** "empty tag": a URI ending in a bare ':' has the empty tag. */
  lemma EmptyTagVector()
    ensures Tag(Repository + ":") == ""
    ensures Image(Repository + ":") == Repository
  {
    assert Repository + ":" == Repository + ":" + "";
    SplitOfJoinedImage(Repository, "");
  }
}

=== FILE: retrier.dfy ===
/** The retry loop the command dispatcher runs its three stages under.

    The operation being retried is represented by the finite sequence of
    outcomes it yields on successive attempts. The loop runs the operation at
    least once. After a failure it asks its policy, passing the number of
    attempts made so far and the error, whether to go on and how long to wait.
    The sequence ends where the wall-clock ceiling ends the loop: when it runs
    out after a retry decision, the loop gives up with the last error, as it
    does when the policy says stop. Sleeping is recorded as the list of waits
    issued, in seconds, and never happens after a success. */
module Retrier {
  import opened Wrappers

  /** A policy's verdict: whether to try again, and the wait before doing so. */
  datatype Decision = Decision(retry: bool, waitSeconds: nat)

  /** `(attempts so far, last error) -> decision`. */
  type Policy<!E> = (nat, E) -> Decision

  /** What one run of the loop did: the outcome it returns (that of its last
      attempt), how many attempts it made, and the waits it issued. */
  datatype RetryOutcome<T, E> = RetryOutcome(result: Result<T, E>, attempts: nat, waits: seq<nat>)

  /** The policy of a loop bounded by a fixed number of attempts with a fixed
      wait between them: whatever the error, retry while fewer than
      `maxAttempts` attempts have been made. */
  function MaxAttemptsPolicy<E>(maxAttempts: nat, waitSeconds: nat): Policy<E>
  {
    (attempts: nat, err: E) => Decision(attempts < maxAttempts, waitSeconds)
  }

  /** The loop, resumed after `done` attempts. Its contract characterises the
      run completely: every attempt but the last failed and the policy asked
      for another; the last one succeeded, or was refused a retry, or used up
      the sequence; exactly one wait follows each retry decision. */
  function RetryFrom<T, E>(policy: Policy<E>, outcomes: seq<Result<T, E>>, done: nat): (o: RetryOutcome<T, E>)
    requires done < |outcomes|
    ensures done < o.attempts <= |outcomes|
    ensures o.result == outcomes[o.attempts - 1]
    ensures forall j :: done <= j < o.attempts - 1 ==>
      outcomes[j].Failure? && policy(j + 1, outcomes[j].error).retry
    ensures o.result.Failure? && o.attempts < |outcomes| ==> !policy(o.attempts, o.result.error).retry
    ensures o.result.Success? ==> |o.waits| == o.attempts - done - 1
    ensures o.result.Failure? ==>
      |o.waits| == o.attempts - done - (if policy(o.attempts, o.result.error).retry then 0 else 1)
    ensures forall k :: 0 <= k < |o.waits| ==>
      done + k < |outcomes| && outcomes[done + k].Failure? &&
      o.waits[k] == policy(done + k + 1, outcomes[done + k].error).waitSeconds
    decreases |outcomes| - done
  {
    var attempts := done + 1;
    match outcomes[done]
    case Success(_) => RetryOutcome(outcomes[done], attempts, [])
    case Failure(err) =>
      var d := policy(attempts, err);
      if !d.retry then RetryOutcome(outcomes[done], attempts, [])
      else if attempts == |outcomes| then RetryOutcome(outcomes[done], attempts, [d.waitSeconds])
      else
        var next := RetryFrom(policy, outcomes, attempts);
        RetryOutcome(next.result, next.attempts, [d.waitSeconds] + next.waits)
  }

  /** The loop from its first attempt. */
  function Retry<T, E>(policy: Policy<E>, outcomes: seq<Result<T, E>>): (o: RetryOutcome<T, E>)
    requires |outcomes| > 0
  {
    RetryFrom(policy, outcomes, 0)
  }

  /** A fixed-attempts policy never lets the loop exceed its budget. */
  lemma FixedAttemptsWithinBudget<T, E>(maxAttempts: nat, waitSeconds: nat, outcomes: seq<Result<T, E>>)
    requires maxAttempts > 0 && |outcomes| > 0
    ensures Retry(MaxAttemptsPolicy(maxAttempts, waitSeconds), outcomes).attempts <= maxAttempts
  {
    var p: Policy<E> := MaxAttemptsPolicy(maxAttempts, waitSeconds);
    var o := Retry(p, outcomes);
    var j := if o.attempts > maxAttempts then maxAttempts - 1 else 0;
    assert j < o.attempts - 1 ==> outcomes[j].Failure? && p(j + 1, outcomes[j].error).retry;
  }

  /** An operation whose first `k` failures the policy all lets through, and
      which then succeeds, succeeds on attempt `k + 1` after exactly `k` waits,
      those the policy chose. */
  lemma RetriedFailuresThenSuccess<T, E>(policy: Policy<E>, outcomes: seq<Result<T, E>>, k: nat)
    requires k < |outcomes|
    requires forall j :: 0 <= j < k ==> outcomes[j].Failure? && policy(j + 1, outcomes[j].error).retry
    requires outcomes[k].Success?
    ensures Retry(policy, outcomes).attempts == k + 1
    ensures Retry(policy, outcomes).result == outcomes[k]
    ensures |Retry(policy, outcomes).waits| == k
  {
  }

  /** Under a fixed-attempts policy the loop succeeds exactly when one of the
      first `maxAttempts` outcomes the ceiling lets it see is a success. */
  lemma FixedAttemptsSucceedIff<T, E>(maxAttempts: nat, waitSeconds: nat, outcomes: seq<Result<T, E>>)
    requires maxAttempts > 0 && |outcomes| > 0
    ensures Retry(MaxAttemptsPolicy(maxAttempts, waitSeconds), outcomes).result.Success? <==>
      exists j :: 0 <= j < maxAttempts && j < |outcomes| && outcomes[j].Success?
  {
    var p: Policy<E> := MaxAttemptsPolicy(maxAttempts, waitSeconds);
    var o := Retry(p, outcomes);
    if o.result.Success? {
      assert outcomes[o.attempts - 1].Success?;
      if o.attempts > 1 {
        assert p(o.attempts - 1, outcomes[o.attempts - 2].error).retry;
      }
    } else {
      forall j | 0 <= j < maxAttempts && j < |outcomes|
        ensures outcomes[j].Failure?
      {
      }
    }
  }

  /** Under a fixed-attempts policy a failing loop has used every attempt the
      budget and the ceiling allow, and every wait it issued is the fixed one:
      one after each failed attempt but the budget's last. */
  lemma FixedAttemptsFailureUsesBudget<T, E>(maxAttempts: nat, waitSeconds: nat, outcomes: seq<Result<T, E>>)
    requires maxAttempts > 0 && |outcomes| > 0
    ensures var o := Retry(MaxAttemptsPolicy(maxAttempts, waitSeconds), outcomes);
      && (o.result.Failure? ==> o.attempts == Min(maxAttempts, |outcomes|))
      && |o.waits| == (if o.result.Failure? && o.attempts < maxAttempts then o.attempts else o.attempts - 1)
      && forall k :: 0 <= k < |o.waits| ==> o.waits[k] == waitSeconds
  {
    var p: Policy<E> := MaxAttemptsPolicy(maxAttempts, waitSeconds);
    var o := Retry(p, outcomes);
    FixedAttemptsWithinBudget(maxAttempts, waitSeconds, outcomes);
    if o.result.Failure? && o.attempts < |outcomes| {
      assert !p(o.attempts, o.result.error).retry;
    }
    forall k | 0 <= k < |o.waits| ensures o.waits[k] == waitSeconds {
      assert o.waits[k] == p(k + 1, outcomes[k].error).waitSeconds;
    }
  }

  function Min(a: nat, b: nat): (m: nat)
    ensures m <= a && m <= b && (m == a || m == b)
  {
    if a < b then a else b
  }

  /** The loop under a fixed-attempts policy: at most `maxAttempts`
      attempts, stopping at the first success and succeeding exactly when
      one of them does; a failure returns
      the error of the last attempt the budget and the ceiling allow; every
      wait is the fixed one. */
  function RetryFixed<T, E>(maxAttempts: nat, waitSeconds: nat, outcomes: seq<Result<T, E>>): (o: RetryOutcome<T, E>)
    requires maxAttempts > 0 && |outcomes| > 0
    ensures o == Retry(MaxAttemptsPolicy(maxAttempts, waitSeconds), outcomes)
    ensures 1 <= o.attempts <= maxAttempts && o.attempts <= |outcomes|
    ensures o.result == outcomes[o.attempts - 1]
    ensures forall j :: 0 <= j < o.attempts - 1 ==> outcomes[j].Failure?
    ensures o.result.Success? <==> exists j :: 0 <= j < maxAttempts && j < |outcomes| && outcomes[j].Success?
    ensures o.result.Failure? ==> o.attempts == Min(maxAttempts, |outcomes|)
    ensures |o.waits| == (if o.result.Failure? && o.attempts < maxAttempts then o.attempts else o.attempts - 1)
    ensures forall k :: 0 <= k < |o.waits| ==> o.waits[k] == waitSeconds
  {
    FixedAttemptsSucceedIff(maxAttempts, waitSeconds, outcomes);
    FixedAttemptsWithinBudget(maxAttempts, waitSeconds, outcomes);
    FixedAttemptsFailureUsesBudget(maxAttempts, waitSeconds, outcomes);
    Retry(MaxAttemptsPolicy(maxAttempts, waitSeconds), outcomes)
  }

  /** An operation that always fails is tried exactly `maxAttempts` times when
      the ceiling allows that many, with the fixed wait between attempts, and
      the loop returns the last error. */
  lemma AlwaysFailingUsesEveryAttempt<T, E>(maxAttempts: nat, waitSeconds: nat, outcomes: seq<Result<T, E>>)
    requires 0 < maxAttempts <= |outcomes|
    requires forall j :: 0 <= j < |outcomes| ==> outcomes[j].Failure?
    ensures var o := Retry(MaxAttemptsPolicy(maxAttempts, waitSeconds), outcomes);
      o.attempts == maxAttempts && o.result == outcomes[maxAttempts - 1] &&
      o.waits == seq(maxAttempts - 1, _ => waitSeconds)
  {
    var p: Policy<E> := MaxAttemptsPolicy(maxAttempts, waitSeconds);
    var o := Retry(p, outcomes);
    if o.attempts > 1 {
      assert p(o.attempts - 1, outcomes[o.attempts - 2].error).retry;
    }
  }

  /** An operation that fails `k` times and then succeeds, with `k` below the
      attempt budget, succeeds on attempt `k + 1`, having waited exactly `k`
      times: no wait follows the success. */
  lemma FailuresThenSuccess<T, E>(maxAttempts: nat, waitSeconds: nat, outcomes: seq<Result<T, E>>, k: nat)
    requires k < maxAttempts && k < |outcomes|
    requires forall j :: 0 <= j < k ==> outcomes[j].Failure?
    requires outcomes[k].Success?
    ensures var o := Retry(MaxAttemptsPolicy(maxAttempts, waitSeconds), outcomes);
      o.attempts == k + 1 && o.result == outcomes[k] && o.waits == seq(k, _ => waitSeconds)
  {
    var p: Policy<E> := MaxAttemptsPolicy(maxAttempts, waitSeconds);
    var o := Retry(p, outcomes);
  }
}

=== FILE: ssm_command.dfy ===
/** Running one shell command on a managed instance through the remote
    command service (internal/pkg/ssm/command.go).

    `Run` builds the send-command request, applies the caller's options in
    order, submits it under a throttle-aware retry policy, waits for the
    invocation to be registered, polls it until its status is final, prints
    the captured output tagged with the instance id, and succeeds only when
    the final status is `Success`.

    The service is a script of replies, one non-empty sequence per stage; each
    sequence also stands for the wall-clock ceiling of its stage (see module
    Retrier). The throttle test of the SDK is the `throttled` flag of an
    error. */
module SsmCommand {
  import opened Wrappers
  import Text
  import Retrier

  // ---------------------------------------------------------------------
  // The request

  /** Working-directory preamble run ahead of every command. */
  const InitE2EDirCommand: string := "mkdir -p /home/e2e/bin && cd /home/e2e"
  const RunShellScriptDocument: string := "AWS-RunShellScript"
  const CommandsParameter: string := "commands"
  const ExecutionTimeoutParameter: string := "executionTimeout"

  /** The fields of the SDK's `SendCommandInput` this code reads or writes;
      the optional ones are the nilable pointers. */
  datatype SendCommandInput = SendCommandInput(
    documentName: string,
    instanceIds: seq<string>,
    parameters: map<string, seq<string>>,
    outputS3BucketName: Option<string>,
    outputS3KeyPrefix: Option<string>)

  /** A caller option mutates the outgoing request. */
  type CommandOpt = SendCommandInput -> SendCommandInput

  /** The request `Run` starts from, before any option is applied. */
  function BuildRequest(instanceId: string, command: string): (c: SendCommandInput)
    ensures c.documentName == RunShellScriptDocument
    ensures c.instanceIds == [instanceId]
    ensures c.parameters.Keys == {CommandsParameter, ExecutionTimeoutParameter}
    ensures c.parameters[CommandsParameter] == [InitE2EDirCommand, command]
    // the remote execution timeout: three hours, in seconds
    ensures c.parameters[ExecutionTimeoutParameter] == ["10800"]
    ensures c.outputS3BucketName.None? && c.outputS3KeyPrefix.None?
  {
    SendCommandInput(
      RunShellScriptDocument,
      [instanceId],
      map[CommandsParameter := [InitE2EDirCommand, command], ExecutionTimeoutParameter := ["10800"]],
      None, None)
  }

  /** Options are applied one after the other, in list order: no option
      leaves the request as built, and otherwise the last option is applied
      to what all the earlier ones made. */
  function ApplyOpts(c: SendCommandInput, opts: seq<CommandOpt>): (r: SendCommandInput)
    ensures |opts| == 0 ==> r == c
    ensures |opts| > 0 ==> r == opts[|opts| - 1](ApplyOpts(c, opts[..|opts| - 1]))
    decreases |opts|
  {
    if |opts| == 0 then c
    else
      var rest := opts[1..];
      assert |rest| > 0 ==> opts[..|opts| - 1][1..] == rest[..|rest| - 1];
      ApplyOpts(opts[0](c), rest)
  }

  /** Applying `a` then `b` is applying `a` and then, to that result, `b`. */
  lemma {:induction false} ApplyOptsInOrder(c: SendCommandInput, a: seq<CommandOpt>, b: seq<CommandOpt>)
    ensures ApplyOpts(c, a + b) == ApplyOpts(ApplyOpts(c, a), b)
    decreases |a|
  {
    if |a| > 0 {
      assert (a + b)[0] == a[0];
      assert (a + b)[1..] == a[1..] + b;
      ApplyOptsInOrder(a[0](c), a[1..], b);
    } else {
      assert a + b == b;
    }
  }

  /** The last option has the final word: it is applied to the result of all
      the earlier ones. */
  lemma LastOptionWins(c: SendCommandInput, opts: seq<CommandOpt>, last: CommandOpt)
    ensures ApplyOpts(c, opts + [last]) == last(ApplyOpts(c, opts))
  {
    ApplyOptsInOrder(c, opts, [last]);
  }

  /** The option that sends the command's output to an S3 bucket and prefix;
      it touches nothing else. */
  function WithOutputToS3(bucket: string, dir: string): (opt: CommandOpt)
    ensures forall c :: opt(c).outputS3BucketName == Some(bucket) && opt(c).outputS3KeyPrefix == Some(dir)
    ensures forall c :: opt(c).documentName == c.documentName && opt(c).instanceIds == c.instanceIds &&
                        opt(c).parameters == c.parameters
  {
    (c: SendCommandInput) => c.(outputS3BucketName := Some(bucket), outputS3KeyPrefix := Some(dir))
  }

  /** Applying the S3 option twice is applying it once. */
  lemma WithOutputToS3Idempotent(bucket: string, dir: string, c: SendCommandInput)
    ensures WithOutputToS3(bucket, dir)(WithOutputToS3(bucket, dir)(c)) == WithOutputToS3(bucket, dir)(c)
  {
  }

  /** Of two S3 options, the later one decides where output goes, whatever
      came before; the rest of the request is what the earlier options made. */
  lemma LaterS3OptionOverrides(c: SendCommandInput, opts: seq<CommandOpt>, bucket: string, dir: string)
    ensures var r := ApplyOpts(c, opts + [WithOutputToS3(bucket, dir)]);
      var before := ApplyOpts(c, opts);
      r.outputS3BucketName == Some(bucket) && r.outputS3KeyPrefix == Some(dir) &&
      r.documentName == before.documentName && r.instanceIds == before.instanceIds &&
      r.parameters == before.parameters
  {
    LastOptionWins(c, opts, WithOutputToS3(bucket, dir));
  }

  // ---------------------------------------------------------------------
  // Statuses and errors

  const StatusSuccess: string := "Success"
  const StatusInProgress: string := "InProgress"
  const StatusDelayed: string := "Delayed"
  const StatusPending: string := "Pending"

  /** The statuses of an invocation that is still queued or running. */
  const NonFinalStatuses: set<string> := {StatusInProgress, StatusDelayed, StatusPending}

  /** Every status outside the non-final set is final, unknown ones included:
      an unrecognised status stops the polling rather than looping. */
  function IsFinalStatus(status: string): (final: bool)
    ensures final <==> status != StatusInProgress && status != StatusDelayed && status != StatusPending
  {
    status !in NonFinalStatuses
  }

  /** The service's statuses other than the three non-final ones, and a
      made-up one, are all final. */
  lemma FinalStatuses()
    ensures forall s :: s in {"Success", "Cancelled", "TimedOut", "Failed", "Cancelling", "Bogus", ""} ==> IsFinalStatus(s)
    ensures !IsFinalStatus("InProgress") && !IsFinalStatus("Delayed") && !IsFinalStatus("Pending")
  {
  }

  /** An error from the service; `throttled` is the SDK's throttle test. */
  datatype ServiceError = ServiceError(throttled: bool, message: string)

  /** What `GetCommandInvocation` returns. */
  datatype Invocation = Invocation(status: string, standardOutputContent: string, standardErrorContent: string)

  /** The registration closure's error. */
  datatype RegistrationError = GetInvocationFailed(cause: ServiceError)

  /** The completion-poll closure's errors: a query that failed, or a
      non-final status turned into an error so that the loop tries again. */
  datatype PollError = QueryFailed(cause: ServiceError) | StillRunning(status: string)

  /** What `Run` can return besides nil, one per stage. */
  datatype RunError =
    | SubmitExhausted(submitCause: ServiceError)
    | NotRegistered(registrationCause: RegistrationError)
    | PollExhausted(pollCause: PollError)
    | ExecutionFailed

  /** What `WaitForSSMReady` returns besides nil. */
  datatype ReadinessError = NotReady(cause: RunError)

  function RegistrationErrorMessage(e: RegistrationError): string
  {
    "error getting ssm command invocation: " + e.cause.message
  }

  function PollErrorMessage(e: PollError): string
  {
    match e
    case QueryFailed(cause) => cause.message
    case StillRunning(status) => "command still running with status " + status
  }

  const SendingPrefix: string := "retries exhausted sending ssm command: "
  const RegisteringPrefix: string := "error waiting for ssm " + "command to be registered: "
  const RunningPrefix: string := "retries exhausted running ssm command: "
  const ExecutionFailedMessage: string := "failed to execute ssm command"
  const ReadinessPrefix: string := "error waiting for ssm to be ready: "

  /** The text of a `Run` error's cause, as `%v` renders it; an execution
      failure has none. */
  function CauseMessage(e: RunError): string
  {
    match e
    case SubmitExhausted(cause) => cause.message
    case NotRegistered(cause) => RegistrationErrorMessage(cause)
    case PollExhausted(cause) => PollErrorMessage(cause)
    case ExecutionFailed => ""
  }

  /** The text of each error `Run` returns: the fixed text of the stage that
      failed, followed by the text of the error that stage gave up on. */
  function RunErrorMessage(e: RunError): (m: string)
    ensures StagePrefix(e) <= m && m[|StagePrefix(e)|..] == CauseMessage(e)
  {
    match e
    case SubmitExhausted(cause) => SendingPrefix + cause.message
    case NotRegistered(cause) => RegisteringPrefix + RegistrationErrorMessage(cause)
    case PollExhausted(cause) => RunningPrefix + PollErrorMessage(cause)
    case ExecutionFailed => ExecutionFailedMessage
  }

  /** The readiness error wraps the text of the last probe's error. */
  function ReadinessErrorMessage(e: ReadinessError): (m: string)
    ensures ReadinessPrefix <= m && m[|ReadinessPrefix|..] == RunErrorMessage(e.cause)
  {
    ReadinessPrefix + RunErrorMessage(e.cause)
  }

  /** The fixed text that opens the message of each kind of `Run` error. */
  function StagePrefix(e: RunError): string
  {
    match e
    case SubmitExhausted(_) => SendingPrefix
    case NotRegistered(_) => RegisteringPrefix
    case PollExhausted(_) => RunningPrefix
    case ExecutionFailed => ExecutionFailedMessage
  }

  /** First letter of each stage prefix. */
  function StageInitial(e: RunError): (c: char)
    ensures c == StagePrefix(e)[0]
  {
    match e
    case SubmitExhausted(_) => 'r'
    case NotRegistered(_) => 'e'
    case PollExhausted(_) => 'r'
    case ExecutionFailed => 'f'
  }

  /** `a` and `b` come from the same stage of `Run`. */
  predicate SameStage(a: RunError, b: RunError)
  {
    && a.SubmitExhausted? == b.SubmitExhausted? && a.NotRegistered? == b.NotRegistered?
    && a.PollExhausted? == b.PollExhausted? && a.ExecutionFailed? == b.ExecutionFailed?
  }

  /** Each stage's failure has its own message: errors of different stages
      never have the same text, so the text tells which stage failed. */
  lemma RunErrorMessagesIdentifyStage(a: RunError, b: RunError)
    ensures !SameStage(a, b) ==> RunErrorMessage(a) != RunErrorMessage(b)
  {
    var p, q := StagePrefix(a), StagePrefix(b);
    var x := RunErrorMessage(a)[|p|..];
    var y := RunErrorMessage(b)[|q|..];
    assert RunErrorMessage(a) == p + x;
    assert RunErrorMessage(b) == q + y;
    // prefixes of different stages differ in their first letter, except
    // "retries exhausted sending" and "retries exhausted running", which
    // differ at index 18
    if (a.SubmitExhausted? && b.PollExhausted?) || (a.PollExhausted? && b.SubmitExhausted?) {
      Text.PrefixesDiffer(p, q, x, y, 18);
    } else if !SameStage(a, b) {
      assert p[0] == StageInitial(a) && q[0] == StageInitial(b);
      Text.PrefixesDiffer(p, q, x, y, 0);
    }
  }

  // ---------------------------------------------------------------------
  // Retry policies of the three stages

  const ThrottleRetryLimit: nat := 60
  const ThrottleWaitSeconds: nat := 60
  const RegistrationAttempts: nat := 10
  const RegistrationWaitSeconds: nat := 5
  const PollAttempts: nat := 2160
  const PollWaitSeconds: nat := 60
  const ReadinessAttempts: nat := 10
  const ReadinessWaitSeconds: nat := 20

  /** Submission policy: retry a throttled submission after a minute while
      fewer than 60 attempts have been made; never retry anything else. */
  function ThrottlePolicy(totalRetries: nat, err: ServiceError): (d: Retrier.Decision)
    ensures d.retry <==> err.throttled && totalRetries < ThrottleRetryLimit
    ensures d.waitSeconds == (if d.retry then ThrottleWaitSeconds else 0)
  {
    if err.throttled && totalRetries < 60 then Retrier.Decision(true, 60) else Retrier.Decision(false, 0)
  }

  /** Submission runs under the throttle policy. */
  function Submit(sendReplies: seq<Result<string, ServiceError>>): (o: Retrier.RetryOutcome<string, ServiceError>)
    requires |sendReplies| > 0
    ensures 1 <= o.attempts <= ThrottleRetryLimit && o.attempts <= |sendReplies|
    ensures o.result == sendReplies[o.attempts - 1]
    // it gives up only on an error that is not throttling, after the 60th
    // attempt, or when the replies run out
    ensures o.result.Failure? ==>
      !o.result.error.throttled || o.attempts == ThrottleRetryLimit || o.attempts == |sendReplies|
    ensures forall j :: 0 <= j < o.attempts - 1 ==> sendReplies[j].Failure? && sendReplies[j].error.throttled
    // a minute's wait after every retried send, and after a last throttled
    // send the ceiling cut short
    ensures |o.waits| ==
      (if o.result.Failure? && o.result.error.throttled && o.attempts < ThrottleRetryLimit then o.attempts else o.attempts - 1)
    ensures forall k :: 0 <= k < |o.waits| ==> o.waits[k] == ThrottleWaitSeconds
  {
    var o := Retrier.Retry(ThrottlePolicy, sendReplies);
    ThrottleBudget(sendReplies);
    o
  }

  /** The submission makes at most 60 attempts, however long throttling lasts. */
  lemma ThrottleBudget(sendReplies: seq<Result<string, ServiceError>>)
    requires |sendReplies| > 0
    ensures Retrier.Retry(ThrottlePolicy, sendReplies).attempts <= ThrottleRetryLimit
  {
    var o := Retrier.Retry(ThrottlePolicy, sendReplies);
    var j := if o.attempts > ThrottleRetryLimit then ThrottleRetryLimit - 1 else 0;
    assert j < o.attempts - 1 ==> sendReplies[j].Failure? && ThrottlePolicy(j + 1, sendReplies[j].error).retry;
  }

  /** A non-throttle submission error is never retried: one attempt, and
      that error is what the submission stage fails with. */
  lemma NonThrottleErrorNotRetried(sendReplies: seq<Result<string, ServiceError>>)
    requires |sendReplies| > 0 && sendReplies[0].Failure? && !sendReplies[0].error.throttled
    ensures Submit(sendReplies).attempts == 1
    ensures Submit(sendReplies).result == sendReplies[0]
    ensures Submit(sendReplies).waits == []
  {
  }

  /** Throttled `k` times, `k` under the limit, then accepted: the submission
      succeeds on attempt `k + 1` after `k` one-minute waits. */
  lemma ThrottledThenAccepted(sendReplies: seq<Result<string, ServiceError>>, k: nat)
    requires k < ThrottleRetryLimit && k < |sendReplies|
    requires forall j :: 0 <= j < k ==> sendReplies[j].Failure? && sendReplies[j].error.throttled
    requires sendReplies[k].Success?
    ensures Submit(sendReplies).attempts == k + 1
    ensures Submit(sendReplies).result == sendReplies[k]
    ensures Submit(sendReplies).waits == seq(k, _ => ThrottleWaitSeconds)
  {
    forall j | 0 <= j < k ensures ThrottlePolicy(j + 1, sendReplies[j].error).retry {
    }
    Retrier.RetriedFailuresThenSuccess(ThrottlePolicy, sendReplies, k);
  }

  /** One registration query: any error means "not registered yet". */
  function RegistrationStep(reply: Result<Invocation, ServiceError>): (r: Result<Invocation, RegistrationError>)
    ensures r.Success? <==> reply.Success?
    ensures reply.Failure? ==> r.error.cause == reply.error
  {
    match reply
    case Success(inv) => Success(inv)
    case Failure(e) => Failure(GetInvocationFailed(e))
  }

  /** One completion query: a query error comes back unchanged and a non-final
      status becomes a "still running" error, both of which the loop retries;
      only a final status ends the poll. */
  function PollStep(reply: Result<Invocation, ServiceError>): (r: Result<Invocation, PollError>)
    ensures r.Success? <==> reply.Success? && IsFinalStatus(reply.value.status)
    ensures r.Success? ==> r.value == reply.value
    ensures reply.Failure? ==> r == Failure(QueryFailed(reply.error))
    ensures reply.Success? && !r.Success? ==> r == Failure(StillRunning(reply.value.status))
  {
    match reply
    case Failure(e) => Failure(QueryFailed(e))
    case Success(inv) =>
      if IsFinalStatus(inv.status) then Success(inv) else Failure(StillRunning(inv.status))
  }

  function RegistrationOutcomes(replies: seq<Result<Invocation, ServiceError>>): (s: seq<Result<Invocation, RegistrationError>>)
    ensures |s| == |replies|
    ensures forall i :: 0 <= i < |s| ==> s[i] == RegistrationStep(replies[i])
  {
    seq(|replies|, i requires 0 <= i < |replies| => RegistrationStep(replies[i]))
  }

  function PollOutcomes(replies: seq<Result<Invocation, ServiceError>>): (s: seq<Result<Invocation, PollError>>)
    ensures |s| == |replies|
    ensures forall i :: 0 <= i < |s| ==> s[i] == PollStep(replies[i])
  {
    seq(|replies|, i requires 0 <= i < |replies| => PollStep(replies[i]))
  }

  /** Every query before the `n`th failed. */
  predicate FailedBefore(replies: seq<Result<Invocation, ServiceError>>, n: nat)
    requires n <= |replies|
  {
    forall j :: 0 <= j < n - 1 ==> replies[j].Failure?
  }

  /** A status reply that ends the polling: the query succeeded and the
      status is final. */
  predicate ReportsFinal(reply: Result<Invocation, ServiceError>)
  {
    reply.Success? && IsFinalStatus(reply.value.status)
  }

  /** No status reply before the `n`th reported a final status. */
  predicate NoFinalBefore(replies: seq<Result<Invocation, ServiceError>>, n: nat)
    requires n <= |replies|
  {
    forall j :: 0 <= j < n - 1 ==> !ReportsFinal(replies[j])
  }

  /** One of the first 2160 status replies the ceiling allows reports a
      final status. */
  predicate FinalWithinBudget(replies: seq<Result<Invocation, ServiceError>>)
  {
    exists j :: 0 <= j < PollAttempts && j < |replies| && ReportsFinal(replies[j])
  }

  /** Registration: up to 10 queries, five seconds apart, stopping at the
      first that finds the invocation. A failure is the error of the last
      query the budget and the ceiling allow. */
  function WaitForRegistration(replies: seq<Result<Invocation, ServiceError>>): (o: Retrier.RetryOutcome<Invocation, RegistrationError>)
    requires |replies| > 0
    ensures 1 <= o.attempts <= RegistrationAttempts && o.attempts <= |replies|
    ensures o.result == RegistrationStep(replies[o.attempts - 1])
    ensures FailedBefore(replies, o.attempts)
    ensures o.result.Success? <==>
      exists j :: 0 <= j < RegistrationAttempts && j < |replies| && replies[j].Success?
    ensures o.result.Failure? ==> o.attempts == Retrier.Min(RegistrationAttempts, |replies|)
    ensures forall k :: 0 <= k < |o.waits| ==> o.waits[k] == RegistrationWaitSeconds
    ensures |o.waits| == (if o.result.Failure? && o.attempts < RegistrationAttempts then o.attempts else o.attempts - 1)
  {
    var outcomes := RegistrationOutcomes(replies);
    var o := Retrier.RetryFixed(RegistrationAttempts, RegistrationWaitSeconds, outcomes);
    o
  }

  /** Completion: up to 2160 queries, a minute apart, until a final status.
      A failure is the error of the last query the budget and the ceiling
      allow. */
  function PollUntilFinal(replies: seq<Result<Invocation, ServiceError>>): (o: Retrier.RetryOutcome<Invocation, PollError>)
    requires |replies| > 0
    ensures 1 <= o.attempts <= PollAttempts && o.attempts <= |replies|
    ensures o.result == PollStep(replies[o.attempts - 1])
    ensures o.result.Success? ==> replies[o.attempts - 1] == Success(o.result.value) && IsFinalStatus(o.result.value.status)
    ensures o.result.Success? <==> FinalWithinBudget(replies)
    ensures NoFinalBefore(replies, o.attempts)
    ensures o.result.Failure? ==> o.attempts == Retrier.Min(PollAttempts, |replies|)
    ensures forall k :: 0 <= k < |o.waits| ==> o.waits[k] == PollWaitSeconds
    ensures |o.waits| == (if o.result.Failure? && o.attempts < PollAttempts then o.attempts else o.attempts - 1)
  {
    var outcomes := PollOutcomes(replies);
    var o := Retrier.RetryFixed(PollAttempts, PollWaitSeconds, outcomes);
    o
  }

  /** Polling an invocation that reports `k` non-final statuses and then a
      final one takes exactly `k + 1` queries and returns that last reply. */
  lemma RunningThenFinal(replies: seq<Result<Invocation, ServiceError>>, k: nat)
    requires k < PollAttempts && k < |replies|
    requires forall j :: 0 <= j < k ==> replies[j].Success? && !IsFinalStatus(replies[j].value.status)
    requires replies[k].Success? && IsFinalStatus(replies[k].value.status)
    ensures PollUntilFinal(replies).attempts == k + 1
    ensures PollUntilFinal(replies).result == Success(replies[k].value)
    ensures PollUntilFinal(replies).waits == seq(k, _ => PollWaitSeconds)
  {
    var outcomes := PollOutcomes(replies);
    forall j | 0 <= j < k ensures outcomes[j].Failure? {
    }
    Retrier.FailuresThenSuccess(PollAttempts, PollWaitSeconds, outcomes, k);
  }

  // ---------------------------------------------------------------------
  // Output

  const Divider: string := "------\n"

  /** Each piece of `content` split on newlines, prefixed with the instance
      id, in order. */
  function Attribute(instanceId: string, content: string): (pieces: seq<string>)
    ensures |pieces| == Text.Count(content, '\n') + 1
    ensures forall i :: 0 <= i < |pieces| ==> |pieces[i]| >= |instanceId| + 2 && pieces[i][..|instanceId| + 2] == instanceId + ": "
  {
    var lines := Text.Split(content, '\n');
    seq(|lines|, i requires 0 <= i < |lines| => instanceId + ": " + lines[i])
  }

  /** Removes the instance-id prefix from each attributed piece. */
  function StripPrefix(instanceId: string, pieces: seq<string>): seq<string>
  {
    var k := |instanceId| + 2;
    seq(|pieces|, i requires 0 <= i < |pieces| =>
      if |pieces[i]| >= k && pieces[i][..k] == instanceId + ": " then pieces[i][k..] else pieces[i])
  }

  /** Attribution loses nothing: stripping the prefixes and joining the
      pieces with newlines gives back the captured content. */
  lemma AttributionRoundTrip(instanceId: string, content: string)
    ensures StripPrefix(instanceId, Attribute(instanceId, content)) == Text.Split(content, '\n')
    ensures Text.Join(StripPrefix(instanceId, Attribute(instanceId, content)), '\n') == content
  {
    var pieces := Attribute(instanceId, content);
    var lines := Text.Split(content, '\n');
    forall i | 0 <= i < |pieces| ensures StripPrefix(instanceId, pieces)[i] == lines[i] {
      assert pieces[i] == instanceId + ": " + lines[i];
    }
  }

  /** What the final-status branch prints, one element per print call. Each
      piece goes through `Printf("%s: %s")` with no newline of its own. */
  function Transcript(instanceId: string, inv: Invocation): (t: seq<string>)
    ensures |t| == Text.Count(inv.standardOutputContent, '\n') + Text.Count(inv.standardErrorContent, '\n') + 6
  {
    ["Command stdout:\n"] + Attribute(instanceId, inv.standardOutputContent)
      + [Divider, "Command stderr\n"] + Attribute(instanceId, inv.standardErrorContent) + [Divider]
  }

  /** Where each part sits in `[h1] + a + [d, h2] + b + [d]`. */
  lemma {:induction false} FramedSections<T>(h1: T, a: seq<T>, d: T, h2: T, b: seq<T>)
    ensures var t := [h1] + a + [d, h2] + b + [d];
      |t| == |a| + |b| + 4 &&
      t[0] == h1 && t[1..1 + |a|] == a && t[1 + |a|] == d && t[2 + |a|] == h2 &&
      t[3 + |a|..3 + |a| + |b|] == b && t[3 + |a| + |b|] == d
  {
    var t := [h1] + a + [d, h2] + b + [d];
    assert t == [h1] + (a + ([d, h2] + (b + [d])));
    assert t[1..] == a + ([d, h2] + (b + [d]));
    assert t[1 + |a|..] == [d, h2] + (b + [d]);
    assert t[3 + |a|..] == b + [d];
  }

  /** The transcript is a header, the attributed stdout pieces, a divider, a
      header, the attributed stderr pieces and a divider. */
  lemma TranscriptLayout(instanceId: string, inv: Invocation)
    ensures var t := Transcript(instanceId, inv);
      var out := Attribute(instanceId, inv.standardOutputContent);
      var err := Attribute(instanceId, inv.standardErrorContent);
      |t| == |out| + |err| + 4 &&
      t[0] == "Command stdout:\n" && t[1..1 + |out|] == out &&
      t[1 + |out|] == Divider && t[2 + |out|] == "Command stderr\n" &&
      t[3 + |out|..3 + |out| + |err|] == err && t[3 + |out| + |err|] == Divider
  {
    var out := Attribute(instanceId, inv.standardOutputContent);
    var err := Attribute(instanceId, inv.standardErrorContent);
    FramedSections("Command stdout:\n", out, Divider, "Command stderr\n", err);
  }

  /** The captured stdout and stderr can be read back from the transcript:
      strip the instance-id prefixes from the pieces between the headers and
      dividers and join them with newlines. */
  lemma TranscriptReadBack(instanceId: string, inv: Invocation)
    ensures var t := Transcript(instanceId, inv);
      var n := Text.Count(inv.standardOutputContent, '\n') + 1;
      var m := Text.Count(inv.standardErrorContent, '\n') + 1;
      Text.Join(StripPrefix(instanceId, t[1..1 + n]), '\n') == inv.standardOutputContent &&
      Text.Join(StripPrefix(instanceId, t[3 + n..3 + n + m]), '\n') == inv.standardErrorContent
  {
    var out := Attribute(instanceId, inv.standardOutputContent);
    var err := Attribute(instanceId, inv.standardErrorContent);
    FramedSections("Command stdout:\n", out, Divider, "Command stderr\n", err);
    AttributionRoundTrip(instanceId, inv.standardOutputContent);
    AttributionRoundTrip(instanceId, inv.standardErrorContent);
  }

  /** The text the print calls leave on standard output. */
  function PrintedText(t: seq<string>): string
  {
    if |t| == 0 then "" else t[0] + PrintedText(t[1..])
  }

  /** With no newline after each piece, consecutive pieces share one line:
      stdout "a\nb" on instance "i-1" prints as "i-1: ai-1: b". */
  lemma PrintedPiecesShareALine(instanceId: string, stdout: string)
    requires instanceId == "i-1" && stdout == "a\nb"
    ensures PrintedText(Attribute(instanceId, stdout)) == "i-1: ai-1: b"
  {
    assert stdout == "a" + ['\n'] + "b";
    Text.SplitWithoutSeparator("b", '\n');
    Text.SplitPeelsFirstPiece("a", '\n', "b");
    var out := Attribute(instanceId, stdout);
    assert |out| == 2 && out[0] == instanceId + ": " + "a" && out[1] == instanceId + ": " + "b";
    assert PrintedText(out[1..]) == out[1] + PrintedText([]);
    assert out[0] + out[1] == "i-1: ai-1: b";
  }

  // ---------------------------------------------------------------------
  // Run

  /** The replies the service gives each stage of one `Run`; every stage
      makes at least one call, so none is empty. */
  datatype Service = Service(
    sendReplies: seq<Result<string, ServiceError>>,
    registrationReplies: seq<Result<Invocation, ServiceError>>,
    pollReplies: seq<Result<Invocation, ServiceError>>)
  {
    predicate Answers() {
      |sendReplies| > 0 && |registrationReplies| > 0 && |pollReplies| > 0
    }
  }

  /** What one `Run` did: the request it submitted, how many calls each stage
      made, the waits of the submission stage, the command id it got, the
      final status it saw, what it printed, and the error it returned (None
      for nil). A stage that was not reached made no calls. */
  datatype RunTrace = RunTrace(
    request: SendCommandInput,
    submitAttempts: nat,
    submitWaits: seq<nat>,
    commandId: Option<string>,
    registrationAttempts: nat,
    pollAttempts: nat,
    finalStatus: Option<string>,
    printed: seq<string>,
    error: Option<RunError>)

  /** One of the first 10 registration queries the ceiling allows finds the
      invocation. */
  predicate Registered(registrationReplies: seq<Result<Invocation, ServiceError>>)
  {
    exists j :: 0 <= j < RegistrationAttempts && j < |registrationReplies| && registrationReplies[j].Success?
  }

  /** How a trace's submission stage agrees with the send replies: every
      send but the last was throttled and waited a minute; the command id is
      the one the last send got, and without one the run ends with the last
      send's error, which is throttling only if the 60th send or the last
      the ceiling allows was reached. */
  predicate SubmissionFromSendReplies(t: RunTrace, sendReplies: seq<Result<string, ServiceError>>)
  {
    && 1 <= t.submitAttempts <= ThrottleRetryLimit && t.submitAttempts <= |sendReplies|
    && (forall j :: 0 <= j < t.submitAttempts - 1 ==> sendReplies[j].Failure? && sendReplies[j].error.throttled)
    && (forall k :: 0 <= k < |t.submitWaits| ==> t.submitWaits[k] == ThrottleWaitSeconds)
    && |t.submitWaits| ==
         (if t.error.Some? && t.error.value.SubmitExhausted? && t.error.value.submitCause.throttled
             && t.submitAttempts < ThrottleRetryLimit
          then t.submitAttempts else t.submitAttempts - 1)
    && (t.commandId.Some? ==> sendReplies[t.submitAttempts - 1] == Success(t.commandId.value))
    && (t.commandId.None? <==> t.error.Some? && t.error.value.SubmitExhausted?)
    && (t.error.Some? && t.error.value.SubmitExhausted? ==>
          sendReplies[t.submitAttempts - 1] == Failure(t.error.value.submitCause))
    && (t.error.Some? && t.error.value.SubmitExhausted? ==>
          !t.error.value.submitCause.throttled || t.submitAttempts == ThrottleRetryLimit || t.submitAttempts == |sendReplies|)
  }

  /** How a trace's registration stage agrees with the registration
      replies: status queries happen exactly when a command id was obtained
      and registration succeeded, which ended at the first query that found
      the invocation; otherwise, once there is a command id, the
      run ends with the error of the tenth registration query or the last
      the ceiling allows. */
  predicate RegistrationGate(t: RunTrace, registrationReplies: seq<Result<Invocation, ServiceError>>)
  {
    && t.registrationAttempts <= |registrationReplies|
    && FailedBefore(registrationReplies, t.registrationAttempts)
    && (t.pollAttempts > 0 <==> t.commandId.Some? && Registered(registrationReplies))
    && (t.error.Some? && t.error.value.NotRegistered? <==> t.commandId.Some? && t.pollAttempts == 0)
    && (t.error.Some? && t.error.value.NotRegistered? ==>
          t.registrationAttempts > 0 &&
          RegistrationStep(registrationReplies[t.registrationAttempts - 1]) == Failure(t.error.value.registrationCause))
    && (t.error.Some? && t.error.value.NotRegistered? ==>
          t.registrationAttempts == Retrier.Min(RegistrationAttempts, |registrationReplies|))
  }

  /** How a trace's verdict agrees with the status queries: nil only for a
      final status of Success, and `ExecutionFailed` for any other final
      status; once polling starts, a final status is seen exactly when one
      of the first 2160 replies the ceiling allows carries one, and it is the
      one the last query reported, no earlier query having reported one; an
      exhausted poll fails with the error of the 2160th query or the last
      the ceiling allows; output is printed exactly when a final status was
      seen. */
  predicate VerdictFromLastPoll(t: RunTrace, pollReplies: seq<Result<Invocation, ServiceError>>)
  {
    && t.pollAttempts <= |pollReplies|
    && NoFinalBefore(pollReplies, t.pollAttempts)
    && (t.error.None? <==> t.finalStatus == Some(StatusSuccess))
    && (t.error == Some(ExecutionFailed) <==> t.finalStatus.Some? && t.finalStatus.value != StatusSuccess)
    && (t.finalStatus.Some? ==>
          IsFinalStatus(t.finalStatus.value) && t.pollAttempts > 0 &&
          pollReplies[t.pollAttempts - 1].Success? &&
          pollReplies[t.pollAttempts - 1].value.status == t.finalStatus.value)
    && (t.error.Some? && t.error.value.PollExhausted? ==>
          t.pollAttempts > 0 && PollStep(pollReplies[t.pollAttempts - 1]) == Failure(t.error.value.pollCause))
    && (t.error.Some? && t.error.value.PollExhausted? ==>
          t.pollAttempts == Retrier.Min(PollAttempts, |pollReplies|))
    && (t.pollAttempts > 0 ==> (t.finalStatus.Some? <==> FinalWithinBudget(pollReplies)))
    && (|t.printed| > 0 <==> t.finalStatus.Some?)
  }

  /** The stages after an accepted submission: registration, then
      `Complete`. */
  function Observe(instanceId: string, request: SendCommandInput, submission: Retrier.RetryOutcome<string, ServiceError>,
                   svc: Service): (t: RunTrace)
    requires svc.Answers() && submission.result.Success?
    ensures t.request == request && t.submitAttempts == submission.attempts && t.submitWaits == submission.waits
    ensures t.commandId == Some(submission.result.value)
    ensures 1 <= t.registrationAttempts <= RegistrationAttempts && t.registrationAttempts <= |svc.registrationReplies|
    ensures t.pollAttempts <= PollAttempts
    ensures t.error.Some? ==> !t.error.value.SubmitExhausted?
    ensures RegistrationGate(t, svc.registrationReplies)
    ensures VerdictFromLastPoll(t, svc.pollReplies)
    ensures t.finalStatus.Some? ==> t.printed == Transcript(instanceId, svc.pollReplies[t.pollAttempts - 1].value)
  {
    var registration := WaitForRegistration(svc.registrationReplies);
    match registration.result
    case Failure(e) =>
      RunTrace(request, submission.attempts, submission.waits, Some(submission.result.value),
        registration.attempts, 0, None, [], Some(NotRegistered(e)))
    case Success(_) =>
      Complete(instanceId, RunTrace(request, submission.attempts, submission.waits, Some(submission.result.value),
        registration.attempts, 0, None, [], None), svc.pollReplies)
  }

  /** Completion polling, printing and the verdict, filling in the trace of
      a run whose command is registered. */
  function Complete(instanceId: string, registered: RunTrace, pollReplies: seq<Result<Invocation, ServiceError>>): (t: RunTrace)
    requires |pollReplies| > 0
    ensures t.request == registered.request && t.commandId == registered.commandId
    ensures t.submitAttempts == registered.submitAttempts && t.submitWaits == registered.submitWaits
    ensures t.registrationAttempts == registered.registrationAttempts
    ensures 1 <= t.pollAttempts <= PollAttempts
    ensures t.error.Some? ==> t.error.value.PollExhausted? || t.error.value.ExecutionFailed?
    ensures VerdictFromLastPoll(t, pollReplies)
    ensures t.finalStatus.Some? ==> t.printed == Transcript(instanceId, pollReplies[t.pollAttempts - 1].value)
  {
    var poll := PollUntilFinal(pollReplies);
    match poll.result
    case Failure(e) =>
      registered.(pollAttempts := poll.attempts, finalStatus := None, printed := [], error := Some(PollExhausted(e)))
    case Success(inv) =>
      assert pollReplies[poll.attempts - 1] == Success(inv);
      var verdict := if inv.status != StatusSuccess then Some(ExecutionFailed) else None;
      registered.(pollAttempts := poll.attempts, finalStatus := Some(inv.status),
        printed := Transcript(instanceId, inv), error := verdict)
  }

  function Run(instanceId: string, command: string, opts: seq<CommandOpt>, svc: Service): (t: RunTrace)
    requires svc.Answers()
    ensures t.request == ApplyOpts(BuildRequest(instanceId, command), opts)
    ensures t.registrationAttempts <= RegistrationAttempts && t.pollAttempts <= PollAttempts
    ensures SubmissionFromSendReplies(t, svc.sendReplies)
    ensures RegistrationGate(t, svc.registrationReplies)
    ensures VerdictFromLastPoll(t, svc.pollReplies)
  {
    var request := ApplyOpts(BuildRequest(instanceId, command), opts);
    var submission := Submit(svc.sendReplies);
    var t := match submission.result
      case Failure(e) =>
        RunTrace(request, submission.attempts, submission.waits, None, 0, 0, None, [], Some(SubmitExhausted(e)))
      case Success(_) =>
        Observe(instanceId, request, submission, svc);
    SubmissionAgrees(t, svc.sendReplies);
    t
  }

  /** A trace that records what `Submit` did with the send replies agrees
      with those replies. */
  lemma SubmissionAgrees(t: RunTrace, sendReplies: seq<Result<string, ServiceError>>)
    requires |sendReplies| > 0
    requires var s := Submit(sendReplies);
      && t.submitAttempts == s.attempts && t.submitWaits == s.waits
      && (s.result.Success? ==>
            t.commandId == Some(s.result.value) && (t.error.Some? ==> !t.error.value.SubmitExhausted?))
      && (s.result.Failure? ==> t.commandId.None? && t.error == Some(SubmitExhausted(s.result.error)))
    ensures SubmissionFromSendReplies(t, sendReplies)
  {
  }

  /** One submission per run: every send attempt but an accepted last one
      was throttled, and the command id is the one the last attempt got. */
  lemma RunSubmitsOnce(instanceId: string, command: string, opts: seq<CommandOpt>, svc: Service)
    requires svc.Answers()
    ensures var t := Run(instanceId, command, opts, svc);
      && (t.commandId.Some? <==> svc.sendReplies[t.submitAttempts - 1].Success?)
      && (t.commandId.Some? ==> svc.sendReplies[t.submitAttempts - 1] == Success(t.commandId.value))
      && forall j :: 0 <= j < t.submitAttempts - 1 ==> svc.sendReplies[j].Failure? && svc.sendReplies[j].error.throttled
  {
    var submission := Submit(svc.sendReplies);
    var t := Run(instanceId, command, opts, svc);
    assert t.submitAttempts == submission.attempts;
    assert t.commandId.Some? <==> submission.result.Success?;
    assert t.commandId.Some? ==> t.commandId.value == submission.result.value;
  }

  /** What a run prints once it sees a final status is the transcript of
      the status query that reported it. */
  lemma RunPrintsFinalTranscript(instanceId: string, command: string, opts: seq<CommandOpt>, svc: Service)
    requires svc.Answers()
    ensures var t := Run(instanceId, command, opts, svc);
      t.finalStatus.Some? ==>
        && t.pollAttempts > 0 && svc.pollReplies[t.pollAttempts - 1].Success?
        && t.printed == Transcript(instanceId, svc.pollReplies[t.pollAttempts - 1].value)
  {
    var submission := Submit(svc.sendReplies);
    if submission.result.Success? {
      var t := Observe(instanceId, ApplyOpts(BuildRequest(instanceId, command), opts), submission, svc);
      assert Run(instanceId, command, opts, svc) == t;
    }
  }

  /** The stages run in order and a failed stage stops the run: no
      registration query before a command id, no status query unless
      registration succeeded, no final status without a status query. */
  lemma RunStagesInOrder(instanceId: string, command: string, opts: seq<CommandOpt>, svc: Service)
    requires svc.Answers()
    ensures var t := Run(instanceId, command, opts, svc);
      && (t.commandId.None? ==> t.registrationAttempts == 0)
      && (t.commandId.Some? ==> t.registrationAttempts > 0)
      && (t.pollAttempts > 0 ==> t.registrationAttempts > 0 && Registered(svc.registrationReplies))
      && (t.pollAttempts == 0 ==> t.finalStatus.None?)
  {
  }

  /** The request `Run` submits with the S3 option: the fixed document, the
      one instance, the preamble then the command, the three-hour timeout,
      and the caller's bucket and prefix. */
  lemma RunSubmitsPreambleThenCommand(instanceId: string, command: string, bucket: string, dir: string, svc: Service)
    requires svc.Answers()
    ensures var c := Run(instanceId, command, [WithOutputToS3(bucket, dir)], svc).request;
      c.documentName == RunShellScriptDocument && c.instanceIds == [instanceId] &&
      CommandsParameter in c.parameters && c.parameters[CommandsParameter] == [InitE2EDirCommand, command] &&
      ExecutionTimeoutParameter in c.parameters && c.parameters[ExecutionTimeoutParameter] == ["10800"] &&
      c.outputS3BucketName == Some(bucket) && c.outputS3KeyPrefix == Some(dir)
  {
    assert [] + [WithOutputToS3(bucket, dir)] == [WithOutputToS3(bucket, dir)];
    LaterS3OptionOverrides(BuildRequest(instanceId, command), [], bucket, dir);
  }

  /** End to end: a submission throttled `k` times and then accepted, an
      invocation registered at once, and `m` polls that find it running
      before it reports Success. The run makes `k + 1` submit calls a minute
      apart and `m + 1` status queries, returns nil, and prints the captured
      output attributed to the instance. */
  lemma ThrottledThenCompleted(instanceId: string, command: string, svc: Service, k: nat, m: nat)
    requires svc.Answers()
    requires k < ThrottleRetryLimit && k < |svc.sendReplies| && svc.sendReplies[k].Success?
    requires forall j :: 0 <= j < k ==> svc.sendReplies[j].Failure? && svc.sendReplies[j].error.throttled
    requires svc.registrationReplies[0].Success?
    requires m < PollAttempts && m < |svc.pollReplies|
    requires forall j :: 0 <= j < m ==> svc.pollReplies[j].Success? && !IsFinalStatus(svc.pollReplies[j].value.status)
    requires svc.pollReplies[m].Success? && svc.pollReplies[m].value.status == StatusSuccess
    ensures var t := Run(instanceId, command, [], svc);
      t.submitAttempts == k + 1 && t.submitWaits == seq(k, _ => ThrottleWaitSeconds) &&
      t.registrationAttempts == 1 && t.pollAttempts == m + 1 &&
      t.finalStatus == Some(StatusSuccess) && t.error.None? &&
      t.printed == Transcript(instanceId, svc.pollReplies[m].value)
  {
    ThrottledThenAccepted(svc.sendReplies, k);
    RunningThenFinal(svc.pollReplies, m);
  }

  /** Output of three newline-free lines gives three pieces, one per line,
      in order. */
  lemma AttributeOfThreeLines(instanceId: string, a: string, b: string, c: string)
    requires '\n' !in a && '\n' !in b && '\n' !in c
    ensures Attribute(instanceId, a + "\n" + b + "\n" + c) == [instanceId + ": " + a, instanceId + ": " + b, instanceId + ": " + c]
  {
    var content := a + "\n" + b + "\n" + c;
    var bc := b + "\n" + c;
    assert content == a + ['\n'] + bc;
    assert bc == b + ['\n'] + c;
    Text.SplitWithoutSeparator(c, '\n');
    Text.SplitPeelsFirstPiece(b, '\n', c);
    Text.SplitPeelsFirstPiece(a, '\n', bc);
    var lines := Text.Split(content, '\n');
    assert lines == [a, b, c];
  }

  /** Attribution of the three lines "a", "b", "c" to instance "i-1". */
  lemma AttributeThreeLines(instanceId: string, stdout: string)
    requires instanceId == "i-1" && stdout == "a\nb\nc"
    ensures Attribute(instanceId, stdout) == ["i-1: a", "i-1: b", "i-1: c"]
  {
    assert stdout == "a" + "\n" + "b" + "\n" + "c";
    AttributeOfThreeLines(instanceId, "a", "b", "c");
    assert instanceId + ": " + "a" == "i-1: a";
    assert instanceId + ": " + "b" == "i-1: b";
    assert instanceId + ": " + "c" == "i-1: c";
  }

  // ---------------------------------------------------------------------
  // Readiness

  /** One readiness attempt: a `Run` of `ls`, as the retry loop sees it. */
  function Probe(instanceId: string, svc: Service): (r: Result<RunTrace, RunError>)
    requires svc.Answers()
    ensures r.Success? <==> Run(instanceId, "ls", [], svc).error.None?
    ensures r.Failure? ==> Run(instanceId, "ls", [], svc).error == Some(r.error)
  {
    var t := Run(instanceId, "ls", [], svc);
    if t.error.None? then Success(t) else Failure(t.error.value)
  }

  function ProbeOutcomes(instanceId: string, services: seq<Service>): (s: seq<Result<RunTrace, RunError>>)
    requires forall i :: 0 <= i < |services| ==> services[i].Answers()
    ensures |s| == |services|
    ensures forall i :: 0 <= i < |s| ==> s[i] == Probe(instanceId, services[i])
  {
    seq(|services|, i requires 0 <= i < |services| => Probe(instanceId, services[i]))
  }

  /** A probe outcome among the first `n` succeeds exactly when the probe of
      that service does. */
  lemma ProbeOutcomesSucceedIff(instanceId: string, services: seq<Service>, n: nat)
    requires forall i :: 0 <= i < |services| ==> services[i].Answers()
    ensures (exists j :: 0 <= j < n && j < |services| && ProbeOutcomes(instanceId, services)[j].Success?) <==>
      (exists j :: 0 <= j < n && j < |services| && Probe(instanceId, services[j]).Success?)
  {
    var outcomes := ProbeOutcomes(instanceId, services);
    forall j | 0 <= j < |services| ensures outcomes[j].Success? == Probe(instanceId, services[j]).Success? {
    }
  }

  /** The readiness loop over the outcomes of successive `ls` runs: up to 10
      runs, 20 seconds apart, stopping at the first success. A failure is the error of the last run the
      budget and the ceiling allow. */
  function ReadinessLoop(probes: seq<Result<RunTrace, RunError>>): (o: Retrier.RetryOutcome<RunTrace, RunError>)
    requires |probes| > 0
    ensures 1 <= o.attempts <= ReadinessAttempts && o.attempts <= |probes|
    ensures o.result == probes[o.attempts - 1]
    ensures forall j :: 0 <= j < o.attempts - 1 ==> probes[j].Failure?
    ensures o.result.Success? <==> exists j :: 0 <= j < ReadinessAttempts && j < |probes| && probes[j].Success?
    ensures o.result.Failure? ==> o.attempts == Retrier.Min(ReadinessAttempts, |probes|)
    ensures forall k :: 0 <= k < |o.waits| ==> o.waits[k] == ReadinessWaitSeconds
    ensures |o.waits| == (if o.result.Failure? && o.attempts < ReadinessAttempts then o.attempts else o.attempts - 1)
  {
    Retrier.RetryFixed(ReadinessAttempts, ReadinessWaitSeconds, probes)
  }

  /** The readiness probe: nil as soon as one `ls` run succeeds, each run a
      whole `Run` against the service as it then answers; otherwise the
      error of the last run the budget and the ceiling allow. */
  function WaitForSSMReady(instanceId: string, services: seq<Service>): (r: Option<ReadinessError>)
    requires |services| > 0
    requires forall i :: 0 <= i < |services| ==> services[i].Answers()
    ensures r.None? <==>
      exists j :: 0 <= j < ReadinessAttempts && j < |services| && Probe(instanceId, services[j]).Success?
    ensures r.Some? ==>
      Probe(instanceId, services[Retrier.Min(ReadinessAttempts, |services|) - 1]) == Failure(r.value.cause)
  {
    var o := ReadinessLoop(ProbeOutcomes(instanceId, services));
    ReadinessSucceedsIff(instanceId, services);
    ReadinessFailsWithLastProbe(instanceId, services);
    match o.result
    case Success(_) => None
    case Failure(e) => Some(NotReady(e))
  }

  /** The readiness loop over the probes of `services` succeeds exactly when
      one of the first 10 probes does. */
  lemma ReadinessSucceedsIff(instanceId: string, services: seq<Service>)
    requires |services| > 0
    requires forall i :: 0 <= i < |services| ==> services[i].Answers()
    ensures ReadinessLoop(ProbeOutcomes(instanceId, services)).result.Success? <==>
      exists j :: 0 <= j < ReadinessAttempts && j < |services| && Probe(instanceId, services[j]).Success?
  {
    ProbeOutcomesSucceedIff(instanceId, services, ReadinessAttempts);
  }

  /** A failing readiness loop returns the outcome of the last probe the
      budget and the ceiling allow. */
  lemma ReadinessFailsWithLastProbe(instanceId: string, services: seq<Service>)
    requires |services| > 0
    requires forall i :: 0 <= i < |services| ==> services[i].Answers()
    ensures var o := ReadinessLoop(ProbeOutcomes(instanceId, services));
      o.result.Failure? ==> Probe(instanceId, services[Retrier.Min(ReadinessAttempts, |services|) - 1]) == o.result
  {
    var probes := ProbeOutcomes(instanceId, services);
    var o := ReadinessLoop(probes);
    var n := Retrier.Min(ReadinessAttempts, |services|);
    if o.result.Failure? {
      assert o.attempts == n;
      assert probes[n - 1] == Probe(instanceId, services[n - 1]);
    }
  }

  /** The readiness failure is told apart from every error of `Run` by its
      text. */
  lemma ReadinessMessageDistinct(e: ReadinessError, f: RunError)
    ensures ReadinessErrorMessage(e) != RunErrorMessage(f)
  {
    var p := ReadinessPrefix;
    // "ready" and "command" first differ at index 22, every other pair at 0
    match f
    case SubmitExhausted(c) => Text.PrefixesDiffer(p, SendingPrefix, RunErrorMessage(e.cause), c.message, 0);
    case NotRegistered(c) => Text.PrefixesDiffer(p, RegisteringPrefix, RunErrorMessage(e.cause), RegistrationErrorMessage(c), 22);
    case PollExhausted(c) => Text.PrefixesDiffer(p, RunningPrefix, RunErrorMessage(e.cause), PollErrorMessage(c), 0);
    case ExecutionFailed => Text.PrefixesDiffer(p, ExecutionFailedMessage, RunErrorMessage(e.cause), "", 0);
  }
}

=== FILE: support_bundle.dfy ===
/** Assembly of the diagnostic-bundle configuration
    (pkg/support/runsupportbundle.go).

    A bundle is either a custom configuration, identified by the path of the
    user's own bundle file, or a troubleshoot `SupportBundle` built from the
    cluster spec by a chain of `With*` steps, each of which appends what a
    factory returns to the analyzer or the collector list. Factory results
    are opaque. Time-option parsing takes the RFC 3339 parser, the duration
    parser and the current time as parameters. */
module SupportBundle {
  import opened Wrappers
  import Text

  // ---------------------------------------------------------------------
  // Data

  /** Opaque troubleshoot analyzer and collector specifications. */
  datatype Analyzer = Analyzer(spec: string)
  datatype Collector = Collector(spec: string)

  /** A reference to the cluster's datacenter configuration object. */
  datatype Ref = Ref(kind: string, name: string)

  /** Opaque optional parts of a cluster spec; only their presence matters. */
  datatype GitOpsConfig = GitOpsConfig(name: string)
  datatype OidcConfig = OidcConfig(name: string)
  datatype ExternalEtcdConfiguration = ExternalEtcdConfiguration(count: nat)

  /** The parts of a cluster spec the bundle reads; the nilable pointers are
      options. */
  datatype ClusterSpec = ClusterSpec(
    name: string,
    gitOpsConfig: Option<GitOpsConfig>,
    oidcConfig: Option<OidcConfig>,
    externalEtcdConfiguration: Option<ExternalEtcdConfiguration>,
    datacenterRef: Ref)

  /** What each analyzer-factory method returns. */
  datatype AnalyzerFactory = AnalyzerFactory(
    defaultAnalyzers: seq<Analyzer>,
    dataCenterConfigAnalyzers: Ref -> seq<Analyzer>,
    eksaOidcAnalyzers: seq<Analyzer>,
    eksaExternalEtcdAnalyzers: seq<Analyzer>,
    eksaGitopsAnalyzers: seq<Analyzer>)

  /** What the collector factory returns. */
  datatype CollectorFactory = CollectorFactory(defaultCollectors: seq<Collector>)

  /** Opaque handles for the troubleshoot client and the file writer. */
  datatype BundleClient = BundleClient(id: string)
  datatype FileWriter = FileWriter(dir: string)

  /** The troubleshoot `SupportBundle` object. */
  datatype TroubleshootBundle = TroubleshootBundle(
    kind: string,
    apiVersion: string,
    name: string,
    analyzers: seq<Analyzer>,
    collectors: seq<Collector>)

  datatype BundleOpts = BundleOpts(
    analyzerFactory: AnalyzerFactory,
    bundlePath: string,
    collectorFactory: CollectorFactory,
    client: Option<BundleClient>,
    kubeconfig: string,
    writer: Option<FileWriter>)

  /** The diagnostic bundle; `bundle` is None for a custom configuration. The
      constructors never set `spec` or `writer`. */
  datatype DiagnosticBundle = DiagnosticBundle(
    bundle: Option<TroubleshootBundle>,
    bundlePath: string,
    spec: Option<ClusterSpec>,
    analyzerFactory: AnalyzerFactory,
    collectorFactory: CollectorFactory,
    client: Option<BundleClient>,
    kubeconfig: string,
    writer: Option<FileWriter>)
  {
    /** A generated bundle is present, so the `With*` steps can extend it. */
    predicate Generated() {
      bundle.Some?
    }

    function Analyzers(): seq<Analyzer>
      requires Generated()
    {
      bundle.value.analyzers
    }

    function Collectors(): seq<Collector>
      requires Generated()
    {
      bundle.value.collectors
    }
  }

  const SupportBundleKind: string := "SupportBundle"
  const TroubleshootApiVersion: string := "troubleshoot.sh/v1beta2"
  const DefaultBundleName: string := "defaultBundle"

  /** `b` and `r` agree on everything but the two lists of the bundle. */
  ghost predicate SameButLists(b: DiagnosticBundle, r: DiagnosticBundle)
    requires b.Generated() && r.Generated()
  {
    && r.bundle.value.kind == b.bundle.value.kind
    && r.bundle.value.apiVersion == b.bundle.value.apiVersion
    && r.bundle.value.name == b.bundle.value.name
    && r.bundlePath == b.bundlePath && r.spec == b.spec
    && r.analyzerFactory == b.analyzerFactory && r.collectorFactory == b.collectorFactory
    && r.client == b.client && r.kubeconfig == b.kubeconfig && r.writer == b.writer
  }

  // ---------------------------------------------------------------------
  // The With* steps

  /** Appends `extra` to the analyzers. */
  function AppendAnalyzers(b: DiagnosticBundle, extra: seq<Analyzer>): (r: DiagnosticBundle)
    requires b.Generated()
    ensures r.Generated() && SameButLists(b, r)
    ensures r.Analyzers() == b.Analyzers() + extra && r.Collectors() == b.Collectors()
  {
    b.(bundle := Some(b.bundle.value.(analyzers := b.bundle.value.analyzers + extra)))
  }

  function WithDefaultCollectors(b: DiagnosticBundle): (r: DiagnosticBundle)
    requires b.Generated()
    ensures r.Generated() && SameButLists(b, r)
    ensures r.Analyzers() == b.Analyzers()
    ensures b.Collectors() <= r.Collectors()
    ensures r.Collectors()[|b.Collectors()|..] == b.collectorFactory.defaultCollectors
  {
    var extra := b.collectorFactory.defaultCollectors;
    var r := b.(bundle := Some(b.bundle.value.(collectors := b.bundle.value.collectors + extra)));
    assert r.Collectors()[|b.Collectors()|..] == extra;
    r
  }

  function WithDefaultAnalyzers(b: DiagnosticBundle): (r: DiagnosticBundle)
    requires b.Generated()
    ensures r.Generated() && SameButLists(b, r) && r.Collectors() == b.Collectors()
    ensures b.Analyzers() <= r.Analyzers()
    ensures r.Analyzers()[|b.Analyzers()|..] == b.analyzerFactory.defaultAnalyzers
  {
    var r := AppendAnalyzers(b, b.analyzerFactory.defaultAnalyzers);
    assert r.Analyzers()[|b.Analyzers()|..] == b.analyzerFactory.defaultAnalyzers;
    r
  }

  function WithDatacenterConfig(b: DiagnosticBundle, config: Ref): (r: DiagnosticBundle)
    requires b.Generated()
    ensures r.Generated() && SameButLists(b, r) && r.Collectors() == b.Collectors()
    ensures b.Analyzers() <= r.Analyzers()
    ensures r.Analyzers()[|b.Analyzers()|..] == b.analyzerFactory.dataCenterConfigAnalyzers(config)
  {
    var r := AppendAnalyzers(b, b.analyzerFactory.dataCenterConfigAnalyzers(config));
    assert r.Analyzers()[|b.Analyzers()|..] == b.analyzerFactory.dataCenterConfigAnalyzers(config);
    r
  }

  /** The three optional steps: nothing changes when the config is absent,
      otherwise the factory's analyzers for that feature are appended. */
  function WithOidcConfig(b: DiagnosticBundle, config: Option<OidcConfig>): (r: DiagnosticBundle)
    requires b.Generated()
    ensures config.None? ==> r == b
    ensures r.Generated() && SameButLists(b, r) && r.Collectors() == b.Collectors()
    ensures config.Some? ==> r.Analyzers() == b.Analyzers() + b.analyzerFactory.eksaOidcAnalyzers
  {
    if config.Some? then AppendAnalyzers(b, b.analyzerFactory.eksaOidcAnalyzers) else b
  }

  function WithExternalEtcd(b: DiagnosticBundle, config: Option<ExternalEtcdConfiguration>): (r: DiagnosticBundle)
    requires b.Generated()
    ensures config.None? ==> r == b
    ensures r.Generated() && SameButLists(b, r) && r.Collectors() == b.Collectors()
    ensures config.Some? ==> r.Analyzers() == b.Analyzers() + b.analyzerFactory.eksaExternalEtcdAnalyzers
  {
    if config.Some? then AppendAnalyzers(b, b.analyzerFactory.eksaExternalEtcdAnalyzers) else b
  }

  function WithGitOpsConfig(b: DiagnosticBundle, config: Option<GitOpsConfig>): (r: DiagnosticBundle)
    requires b.Generated()
    ensures config.None? ==> r == b
    ensures r.Generated() && SameButLists(b, r) && r.Collectors() == b.Collectors()
    ensures config.Some? ==> r.Analyzers() == b.Analyzers() + b.analyzerFactory.eksaGitopsAnalyzers
  {
    if config.Some? then AppendAnalyzers(b, b.analyzerFactory.eksaGitopsAnalyzers) else b
  }

  // ---------------------------------------------------------------------
  // Constructors

  /** The empty troubleshoot bundle every generated configuration starts from. */
  function EmptyBundle(name: string): TroubleshootBundle
  {
    TroubleshootBundle(SupportBundleKind, TroubleshootApiVersion, name, [], [])
  }

  function NewCustomBundleConfig(opts: BundleOpts): (r: DiagnosticBundle)
    ensures !r.Generated() && r.bundlePath == opts.bundlePath
    ensures r.analyzerFactory == opts.analyzerFactory && r.collectorFactory == opts.collectorFactory
    ensures r.client == opts.client && r.kubeconfig == opts.kubeconfig
    ensures r.spec.None? && r.writer.None?
  {
    DiagnosticBundle(None, opts.bundlePath, None, opts.analyzerFactory, opts.collectorFactory,
      opts.client, opts.kubeconfig, None)
  }

  function NewDefaultBundleConfig(af: AnalyzerFactory, cf: CollectorFactory): (r: DiagnosticBundle)
    ensures r.Generated()
    ensures r.bundle.value.kind == SupportBundleKind && r.bundle.value.apiVersion == TroubleshootApiVersion
    ensures r.bundle.value.name == DefaultBundleName
    ensures r.Analyzers() == af.defaultAnalyzers && r.Collectors() == cf.defaultCollectors
    ensures r.bundlePath == "" && r.client.None? && r.kubeconfig == ""
  {
    var b := DiagnosticBundle(Some(EmptyBundle(DefaultBundleName)), "", None, af, cf, None, "", None);
    WithDefaultCollectors(WithDefaultAnalyzers(b))
  }

  /** The bundle generated from a cluster spec. */
  function NewBundleFromSpec(spec: ClusterSpec, opts: BundleOpts): (r: DiagnosticBundle)
    ensures r.Generated()
    ensures r.bundle.value.kind == SupportBundleKind && r.bundle.value.apiVersion == TroubleshootApiVersion
    ensures r.bundle.value.name == spec.name + "Bundle"
    ensures r.bundlePath == "" && r.client == opts.client && r.kubeconfig == opts.kubeconfig
    ensures r.analyzerFactory == opts.analyzerFactory && r.collectorFactory == opts.collectorFactory
  {
    var b := DiagnosticBundle(Some(EmptyBundle(spec.name + "Bundle")), "", None,
      opts.analyzerFactory, opts.collectorFactory, opts.client, opts.kubeconfig, None);
    WithDefaultCollectors(
      WithDefaultAnalyzers(
        WithDatacenterConfig(
          WithExternalEtcd(
            WithOidcConfig(
              WithGitOpsConfig(b, spec.gitOpsConfig),
              spec.oidcConfig),
            spec.externalEtcdConfiguration),
          spec.datacenterRef)))
  }

  /** The factory's analyzers for a feature when the feature is configured. */
  function IfSet<T>(config: Option<T>, analyzers: seq<Analyzer>): seq<Analyzer>
  {
    if config.Some? then analyzers else []
  }

  /** The analyzers of a spec-derived bundle are, in order: gitops (if
      configured), OIDC (if configured), external etcd (if configured), the
      datacenter's, then the defaults; its collectors are the defaults. */
  lemma BundleFromSpecContents(spec: ClusterSpec, opts: BundleOpts)
    ensures var r := NewBundleFromSpec(spec, opts);
      var af := opts.analyzerFactory;
      r.Analyzers() ==
        IfSet(spec.gitOpsConfig, af.eksaGitopsAnalyzers)
        + IfSet(spec.oidcConfig, af.eksaOidcAnalyzers)
        + IfSet(spec.externalEtcdConfiguration, af.eksaExternalEtcdAnalyzers)
        + af.dataCenterConfigAnalyzers(spec.datacenterRef)
        + af.defaultAnalyzers &&
      r.Collectors() == opts.collectorFactory.defaultCollectors
  {
    var af := opts.analyzerFactory;
    var b0 := DiagnosticBundle(Some(EmptyBundle(spec.name + "Bundle")), "", None,
      af, opts.collectorFactory, opts.client, opts.kubeconfig, None);
    var b1 := WithGitOpsConfig(b0, spec.gitOpsConfig);
    var b2 := WithOidcConfig(b1, spec.oidcConfig);
    var b3 := WithExternalEtcd(b2, spec.externalEtcdConfiguration);
    var b4 := WithDatacenterConfig(b3, spec.datacenterRef);
    var b5 := WithDefaultAnalyzers(b4);
    var b6 := WithDefaultCollectors(b5);
    assert b1.Analyzers() == IfSet(spec.gitOpsConfig, af.eksaGitopsAnalyzers);
    assert b2.Analyzers() == b1.Analyzers() + IfSet(spec.oidcConfig, af.eksaOidcAnalyzers);
    assert b3.Analyzers() == b2.Analyzers() + IfSet(spec.externalEtcdConfiguration, af.eksaExternalEtcdAnalyzers);
    assert b4.Analyzers() == b3.Analyzers() + af.dataCenterConfigAnalyzers(spec.datacenterRef);
    assert b5.Analyzers() == b4.Analyzers() + af.defaultAnalyzers;
    assert b6.Collectors() == [] + opts.collectorFactory.defaultCollectors;
  }

  /** Without a bundle path the diagnostic bundle is generated from the spec,
      with the spec's feature analyzers, the datacenter's, the defaults and
      the default collectors; with one it is the custom configuration at
      that path, with no generated bundle. The path is kept either way, and
      construction never fails. */
  function NewDiagnosticBundle(spec: ClusterSpec, opts: BundleOpts): (r: DiagnosticBundle)
    ensures r.Generated() <==> opts.bundlePath == ""
    ensures r.bundlePath == opts.bundlePath
    ensures r.client == opts.client && r.kubeconfig == opts.kubeconfig
    ensures r.Generated() ==> r.bundle.value.name == spec.name + "Bundle"
    ensures r.Generated() ==>
      var af := opts.analyzerFactory;
      r.Analyzers() ==
        IfSet(spec.gitOpsConfig, af.eksaGitopsAnalyzers)
        + IfSet(spec.oidcConfig, af.eksaOidcAnalyzers)
        + IfSet(spec.externalEtcdConfiguration, af.eksaExternalEtcdAnalyzers)
        + af.dataCenterConfigAnalyzers(spec.datacenterRef)
        + af.defaultAnalyzers &&
      r.Collectors() == opts.collectorFactory.defaultCollectors
    ensures !r.Generated() ==> r == NewCustomBundleConfig(opts)
  {
    if opts.bundlePath == "" then
      BundleFromSpecContents(spec, opts);
      NewBundleFromSpec(spec, opts)
    else NewCustomBundleConfig(opts)
  }

  // ---------------------------------------------------------------------
  // Time options

  /** An instant: nanoseconds since Go's zero time (January 1 of year 1, UTC). */
  datatype Time = Time(nanos: int)

  /** The zero `time.Time`. */
  const ZeroTime: Time := Time(0)

  /** A `time.Duration`: a signed 64-bit count of nanoseconds. */
  type Duration = d: int | -0x8000_0000_0000_0000 <= d < 0x8000_0000_0000_0000

  /** `0 - d` in 64-bit arithmetic: negating the most negative duration
      wraps around to itself. */
  function NegateDuration(d: Duration): (r: Duration)
    ensures d != -0x8000_0000_0000_0000 ==> r == -d
    ensures d == -0x8000_0000_0000_0000 ==> r == d
    // either way `d + r` is zero modulo 2^64
    ensures (d + r) % 0x1_0000_0000_0000_0000 == 0
  {
    if d == -0x8000_0000_0000_0000 then d else -d
  }

  /** `t.Add(d)`. */
  function AddDuration(t: Time, d: Duration): Time
  {
    Time(t.nanos + d)
  }

  datatype TimeOptionError =
    | BothSpecified
    | BadSinceTime(cause: string)
    | BadSince(cause: string)

  const BothSpecifiedMessage: string := "at most one of `sinceTime` " + "or `since` could be specified"
  const SinceTimePrefix: string := "unable to parse --since-time option: "
  const SincePrefix: string := "unable to parse --since option: "

  /** The fixed text that opens each time-option error. */
  function TimeOptionPrefix(e: TimeOptionError): string
  {
    match e
    case BothSpecified => BothSpecifiedMessage
    case BadSinceTime(_) => SinceTimePrefix
    case BadSince(_) => SincePrefix
  }

  /** The parser's own error text a time-option error carries, if any. */
  function TimeOptionCause(e: TimeOptionError): string
  {
    match e
    case BothSpecified => ""
    case BadSinceTime(cause) => cause
    case BadSince(cause) => cause
  }

  /** The text of each error: the fixed text of the failing case followed by
      the `%v` of the parser's error. */
  function TimeOptionErrorMessage(e: TimeOptionError): (m: string)
    ensures TimeOptionPrefix(e) <= m && m[|TimeOptionPrefix(e)|..] == TimeOptionCause(e)
  {
    match e
    case BothSpecified => BothSpecifiedMessage
    case BadSinceTime(cause) => SinceTimePrefix + cause
    case BadSince(cause) => SincePrefix + cause
  }

  /** The message identifies the error: which option failed, and with what
      parser error. */
  lemma TimeOptionMessageDeterminesError(a: TimeOptionError, b: TimeOptionError)
    ensures TimeOptionErrorMessage(a) == TimeOptionErrorMessage(b) ==> a == b
  {
    var p, q := TimeOptionPrefix(a), TimeOptionPrefix(b);
    var x, y := TimeOptionCause(a), TimeOptionCause(b);
    assert TimeOptionErrorMessage(a) == p + x && TimeOptionErrorMessage(b) == q + y;
    if (a.BadSinceTime? && b.BadSince?) || (a.BadSince? && b.BadSinceTime?) {
      // the two parse prefixes part after "unable to parse --since"
      Text.PrefixesDiffer(p, q, x, y, 23);
    } else if a.BothSpecified? != b.BothSpecified? {
      Text.PrefixesDiffer(p, q, x, y, 0);
    } else if p + x == q + y {
      assert x == (p + x)[|p|..] == (q + y)[|q|..] == y;
    }
  }

  /** The start of the log window: the zero time when neither option is
      given, an error when both are, the RFC 3339 timestamp `sinceTime`, or
      `now` minus the duration `since`. */
  function ParseTimeOptions(since: string, sinceTime: string,
                            parseRfc3339: string -> Result<Time, string>,
                            parseDuration: string -> Result<Duration, string>,
                            now: Time): (r: Result<Time, TimeOptionError>)
    ensures since == "" && sinceTime == "" ==> r == Success(ZeroTime)
    ensures since != "" && sinceTime != "" ==> r == Failure(BothSpecified)
    ensures since == "" && sinceTime != "" ==>
      r == (match parseRfc3339(sinceTime)
            case Success(t) => Success(t)
            case Failure(e) => Failure(BadSinceTime(e)))
    ensures since != "" && sinceTime == "" ==>
      r == (match parseDuration(since)
            case Success(d) => Success(AddDuration(now, NegateDuration(d)))
            case Failure(e) => Failure(BadSince(e)))
  {
    if sinceTime == "" && since == "" then Success(ZeroTime)
    else if sinceTime != "" && since != "" then Failure(BothSpecified)
    else if sinceTime != "" then
      match parseRfc3339(sinceTime)
      case Failure(e) => Failure(BadSinceTime(e))
      case Success(t) => Success(t)
    else
      match parseDuration(since)
      case Failure(e) => Failure(BadSince(e))
      case Success(d) => Success(AddDuration(now, NegateDuration(d)))
  }

  /** At most one option is honoured: a result exists only if one of the two
      is empty, and then it comes from the other one alone. */
  lemma AtMostOneTimeOption(since: string, sinceTime: string,
                            parseRfc3339: string -> Result<Time, string>,
                            parseDuration: string -> Result<Duration, string>,
                            now: Time, now': Time)
    requires ParseTimeOptions(since, sinceTime, parseRfc3339, parseDuration, now).Success?
    ensures since == "" || sinceTime == ""
    ensures since == "" ==>
      ParseTimeOptions(since, sinceTime, parseRfc3339, parseDuration, now') ==
      ParseTimeOptions(since, sinceTime, parseRfc3339, parseDuration, now)
  {
  }

  /** A non-negative `--since` looks back: the window starts no later than
      now, and exactly that far back. */
  lemma SinceLooksBack(since: string,
                       parseRfc3339: string -> Result<Time, string>,
                       parseDuration: string -> Result<Duration, string>,
                       now: Time)
    requires since != "" && parseDuration(since).Success? && parseDuration(since).value >= 0
    ensures var r := ParseTimeOptions(since, "", parseRfc3339, parseDuration, now);
      r.Success? && r.value.nanos <= now.nanos && now.nanos - r.value.nanos == parseDuration(since).value
  {
  }
}

=== FILE: text.dfy ===
/** Splitting and joining strings on a one-character separator, with the
    semantics of Go's `strings.Split` and `strings.Join`: splitting never
    drops empty pieces, so "" splits into [""] and "a\n" into ["a", ""]. */
module Text {

  /** Number of occurrences of `c` in `s`. */
  function Count(s: string, c: char): (n: nat)
    ensures n <= |s|
    ensures n == 0 <==> c !in s
  {
    if |s| == 0 then 0
    else (if s[0] == c then 1 else 0) + Count(s[1..], c)
  }

  /** Go's `strings.Join(pieces, string(sep))`. */
  function Join(pieces: seq<string>, sep: char): string
  {
    if |pieces| == 0 then ""
    else if |pieces| == 1 then pieces[0]
    else pieces[0] + [sep] + Join(pieces[1..], sep)
  }

  /** Go's `strings.Split(s, string(sep))`: the maximal separator-free pieces
      of `s`, one more than there are separators. */
  function Split(s: string, sep: char): (pieces: seq<string>)
    ensures |pieces| == Count(s, sep) + 1
    ensures forall i :: 0 <= i < |pieces| ==> sep !in pieces[i]
    ensures Join(pieces, sep) == s
  {
    if |s| == 0 then [""]
    else
      var rest := Split(s[1..], sep);
      if s[0] == sep then [""] + rest
      else [[s[0]] + rest[0]] + rest[1..]
  }

  /** A separator-free string is a single piece. */
  lemma {:induction false} SplitWithoutSeparator(p: string, sep: char)
    requires sep !in p
    ensures Split(p, sep) == [p]
  {
    if |p| > 0 {
      SplitWithoutSeparator(p[1..], sep);
      assert [p[0]] + p[1..] == p;
    }
  }

  /** Splitting `p + sep + rest` peels off `p` as the first piece. */
  lemma {:induction false} SplitPeelsFirstPiece(p: string, sep: char, rest: string)
    requires sep !in p
    ensures Split(p + [sep] + rest, sep) == [p] + Split(rest, sep)
  {
    if |p| == 0 {
      assert p + [sep] + rest == [sep] + rest;
      assert ([sep] + rest)[1..] == rest;
    } else {
      var s := p + [sep] + rest;
      assert s[0] == p[0];
      assert s[1..] == p[1..] + [sep] + rest;
      SplitPeelsFirstPiece(p[1..], sep, rest);
      var tail := Split(s[1..], sep);
      assert tail[0] == p[1..] && tail[1..] == Split(rest, sep);
      assert [p[0]] + p[1..] == p;
    }
  }

  /** Round trip in the other direction: splitting a join of separator-free
      pieces gives the pieces back. */
  lemma {:induction false} SplitOfJoin(pieces: seq<string>, sep: char)
    requires |pieces| > 0
    requires forall i :: 0 <= i < |pieces| ==> sep !in pieces[i]
    ensures Split(Join(pieces, sep), sep) == pieces
  {
    if |pieces| == 1 {
      SplitWithoutSeparator(pieces[0], sep);
    } else {
      SplitOfJoin(pieces[1..], sep);
      SplitPeelsFirstPiece(pieces[0], sep, Join(pieces[1..], sep));
      assert [pieces[0]] + pieces[1..] == pieces;
    }
  }

  /** Two strings that differ inside both of their prefixes differ. */
  lemma PrefixesDiffer(p: string, q: string, x: string, y: string, i: nat)
    requires i < |p| && i < |q| && p[i] != q[i]
    ensures p + x != q + y
  {
    assert (p + x)[i] == p[i] && (q + y)[i] == q[i];
  }
}

=== FILE: wrappers.dfy ===
/** Shared wrappers: `Option` for the source's nilable pointers and `Result`
    for its `(value, error)` returns. */
module Wrappers {

  datatype Option<+T> = None | Some(value: T)

  datatype Result<+T, +E> = Success(value: T) | Failure(error: E)
}
